=== FILE: README.md ===
# krawler, modelled in Dafny

krawler is a small single-site web crawler. It is given a seed URL and an output directory. It
joins each URL to the seed and fetches it when it belongs to the seed's host and has not been
crawled. It stores the page under `<dst>/<host>/`, keeps the anchors that stay on the site,
prefixes them with the seed URL and appends them to a task list. This project models, and proves
properties of:

- `app/utils.py`: `normalize_url` (drop newlines and tabs) and `expand_url` (complete a base
  without a scheme, join a reference without an authority, prefix `http://`);
- `app/checks.py`: `is_url_valid` (a scheme and an authority) and `is_dir_empty` (over the
  directory's entries);
- `app/crawler.py`: class `Crawler` with its `crawledLinks` set and `tasks` list. The model covers
  the constructor's validation, the scope and duplicate gate of `crawl`, the state `crawl`
  updates, the href filter of `extract_links`, the `base_url + "/" + x` expansion, `enqLinks`,
  and the file name `save_content` picks.

The code calls `urllib.parse.urlparse` and `urljoin`, which lie outside the repository. They are
modelled in `urlparse.dfy` (module `UrlParse`) for the parts the crawler reaches. `setup.py`
declares Python 3.9. The model follows CPython 3.9 from release 3.9.17 on, and the 3.12
releases from before `urlunsplit` changed its handling of urls without a netloc. Later 3.12
releases, 3.12.13 among them, have the changed `urlunsplit` (see "## Left out"). Earlier 3.9
releases differ in the input cleaning and the scheme test: the strip of leading controls came in
3.9.17, the rule that a scheme starts with a letter in 3.9.16, and the removal of tab, CR and LF
in 3.9.5. The scheme tables are those of 3.12. They agree with 3.9 on `http` and `https`, the
schemes the crawler builds, and may differ for others. The model covers:

- `urlsplit` strips leading C0 controls and spaces and removes tab, CR and LF.
- The scheme is split off by its character class and lower-cased.
- The authority runs up to the first `/`, `?` or `#`. An unbalanced `[`/`]` in it is the
  `ValueError` "Invalid IPv6 URL".
- `urljoin` resolves a reference against a base by sections 5.2.2 to 5.2.4 of RFC 3986. It uses
  `urljoin`'s own merge, which drops empty inner segments, and `urlunsplit`.
- For the schemes that use them, `urlparse` cuts `;params` off the last path segment.
  `urljoin` merges only the path before them, and `urlunparse` puts them back only when they are
  non-empty. So a ';' that ends a reference is lost: `expand_url("BBB", "dk;")` gives
  `http://BBB/dk`.

A raised `ValueError` becomes the `Failure` of a `Result` (`wrappers.dfy`). `strings.dfy` holds
the prefix, split and subsequence helpers.

Fetching, HTML parsing and the file system are inputs. A `Fetch` value is either the `href` of
every anchor on the page or `Unreachable`, which stands for a `URLError`. The output directory
is given as its list of entries.

Three properties of the code shape the model:

- The scope test is equality of `urlparse(...).netloc`, not a string-prefix test.
- The task list is an in-memory list that `enqLinks` appends to. Nothing takes work off it, and
  nothing persists it.
- The saved file lies directly under `<dst>/<host>/`, whatever the URL's path.

## Model

| member | source | states |
|---|---|---|
| UrlParse.UrlSplit | app/utils.py:19 | `urlparse(url, default)`: a successful split has no `/?#` in its authority, and no `?`/`#` in its path or `#` in its query |
| UrlParse.SplitAbsoluteUrl | app/checks.py:15 | `scheme://host/path` splits into the lower-cased scheme, the host and the path for any default (section 3 of RFC 3986), and unsplitting gives the lower-cased url back |
| UrlParse.SplitRelativeRef | app/utils.py:19 | a plain reference without a scheme or `//` splits to the default scheme, an empty authority and the whole text as path |
| UrlParse.SplitSchemeOnlyUrl | app/utils.py:22 | `scheme:path` with no `//` after the ':' splits into the lower-cased scheme, an empty authority and the path, for any default |
| UrlParse.UrlSplitDefault | app/utils.py:19 | the default scheme decides neither whether the split succeeds nor the authority, path, query or fragment |
| UrlParse.UrlJoin | app/crawler.py:53 | `urljoin`: an empty base gives the url, an empty url gives the base; the other cases are the four join lemmas below |
| UrlParse.SplitParams | app/utils.py:19 | `_splitparams` inside `urlparse`: the path is either left whole with no params, or cut at a ';' into path and params; params hold no '/'; a path without ';', or under a scheme that does not use params, is left whole |
| UrlParse.SplitParamsLastSegment | app/utils.py:19 | for a scheme that uses params, the path is cut iff its last segment holds a ';', and then at the first ';' of that segment |
| UrlParse.TrailingParams | app/utils.py:19 | a ';' that ends the last segment gives empty params and is cut off the path |
| UrlParse.UrlUnsplit | app/utils.py:22 | `urlunsplit`: the url is at least as long as its components together, and a scheme comes first, followed by ':' |
| UrlParse.UrlUnsplitLayout | app/utils.py:22 | where each component lands: "//" and the netloc follow the scheme when there is a netloc, and the url ends with the path, then `?query` and `#fragment` when they are non-empty |
| UrlParse.UnsplitEmptyAuthority | app/utils.py:22 | a scheme that takes a netloc, an empty netloc and a relative path unsplit to `scheme:///path`: the 3.9 form writes the empty authority (see "## Left out") |
| UrlParse.UnsplitDoubleSlashPath | app/utils.py:22 | with no scheme and no netloc, a path that starts with `//` unsplits to itself in the 3.9 form |
| UrlParse.UrlUnparse | app/utils.py:22 | `urlunparse`: with empty params it is `urlunsplit`; otherwise it is `urlunsplit` with `;params` appended to the path |
| UrlParse.MergePath | app/utils.py:22 | the merged path is never empty (`or '/'`); its closed forms are `MergeAbsolutePath`, `MergeIntoRoot` and `MergeIntoDirectory` |
| UrlParse.JoinOtherScheme | app/crawler.py:53 | a reference with another scheme, or one not resolved relatively, is returned as it is |
| UrlParse.JoinWithAuthority | app/crawler.py:53 | a reference with its own authority, under the base's scheme where that scheme takes relative joins, replaces the base and is re-assembled by `urlunparse` |
| UrlParse.JoinInheritsAuthority | app/crawler.py:53 | a reference without authority but with a path or params keeps the base's scheme and authority, merges its path (without params) into the base's, and keeps its own params, query and fragment |
| UrlParse.JoinKeepsBasePath | app/crawler.py:53 | a reference with neither authority, path nor params keeps the base's path and params, and the base's query unless it has its own |
| UrlParse.JoinFailure | app/crawler.py:53 | for a non-empty base and url, the join fails iff parsing the base or the url fails |
| UrlParse.MergeAbsolutePath | app/utils.py:22 | an absolute reference path without dot segments replaces the base path (section 5.2.2 of RFC 3986) |
| UrlParse.MergeIntoRoot | app/utils.py:22 | against a base with an authority and an empty path, a relative path is rooted at `/` (section 5.2.3 of RFC 3986) |
| UrlParse.MergeIntoDirectory | app/utils.py:22 | a relative path without dot or inner empty segments replaces the last segment of a base path `dir/last`, giving `dir/ref` (section 5.2.3 of RFC 3986) |
| Utils.NormalizeUrl | app/utils.py:11 | the result holds no newline and no tab and is no longer than the input |
| Utils.NormalizeUrlIsFilter | app/utils.py:11 | the two `replace` calls drop exactly the newlines and tabs, keeping every other character in order |
| Utils.NormalizeUrlIdempotent | app/utils.py:11 | normalising twice is normalising once |
| Utils.NormalizeUrlKeepsOthers | app/utils.py:11 | the result is a subsequence of the input that has every other character as often as the input has |
| Utils.HttpPrefixOnly | app/utils.py:16 | `startswith('http') or startswith('https')` is the test for the prefix `http` alone |
| Utils.CompletedBase | app/utils.py:16-17 | a base without the prefix `http` gets `http://`: the completed base is non-empty and starts with `http` |
| Utils.ExpandAgainst | app/utils.py:19-25 | once the base is completed: every success starts with `http` |
| Utils.ExpandUrl | app/utils.py:13-28 | every url `expand_url` returns starts with `http`; a parse failure of `urlparse`/`urljoin` is the error result |
| Utils.ExpandUrlKeepsAbsolute | app/utils.py:19-25 | a url with an authority that already starts with `http` comes back unchanged, whatever the base |
| Utils.ExpandUrlWithoutBase | app/utils.py:21-25 | with no base the url is only prefixed with `http://` when it lacks `http`; it fails iff it does not parse |
| Utils.ExpandUrlBareBase | app/utils.py:16-17 | a base without `http` behaves as `http://` followed by that base |
| Utils.ExpandUrlSameBase | app/utils.py:16-22 | two bases that complete to the same base expand every url alike |
| Utils.ExpandUrlFailure | app/utils.py:19-22 | expansion fails only when the url or the completed base does not parse |
| Utils.ExpandUrlJoins | app/utils.py:21-25 | a reference without an authority is joined with the completed base, and the join is prefixed with `http://` only when it lacks `http` |
| Utils.JoinAgainstHost | app/utils.py:22 | joining a plain reference to `http://host` gives `http://host` followed by the reference rooted at `/` |
| Utils.ExpandUrlAgainstHost | app/utils.py:13-28 | a bare host (no scheme, not starting with `http`) and a plain reference expand to `http://host/ref` |
| Utils.JoinDropsEmptyParams | app/utils.py:22 | against `http://host`, a plain reference followed by ';' joins exactly as the reference alone |
| Utils.ExpandUrlDropsEmptyParams | app/utils.py:19-25 | so, for a bare host, `expand_url` gives the same url for `ref;` as for `ref` |
| Utils.ExpandUrlDkParamsVector | app/utils.py:19-25 | base `BBB` and `dk;` give `http://BBB/dk` |
| Utils.ExpandUrlAbsoluteVectors | tests/test_utils.py:10-11 | with base `None` or `"NOTNONE"`, `http://www.cwi.nl` is returned unchanged |
| Utils.ExpandUrlDataVector | tests/test_utils.py:12 | base `Base` and `/data/index.html` give `http://Base/data/index.html` |
| Utils.ExpandUrlDkVector | tests/test_utils.py:13 | base `BBB` and `dk` give `http://BBB/dk` |
| Utils.ExpandUrlDkSlashVector | tests/test_utils.py:14 | base `BBB` and `/dk/` give `http://BBB/dk/` |
| Utils.ExpandUrlLosesHttpNamedHost | app/utils.py:16 | as written: a bare host that starts with `http` is taken as a path, and `/ref` expands to `http:///ref` without the host |
| Utils.JoinAgainstSchemeOnlyBase | app/utils.py:22 | joining a one-segment reference to `http:path`, a base with a scheme and no authority, gives `http:///ref` |
| Utils.ExpandUrlAgainstSchemeOnlyBase | app/utils.py:13-28 | `expand_url("http:" + path, ref)` keeps the base, which passes the `http` prefix test, and gives `http:///ref`, e.g. `http:///bar` for `http:foo` and `bar` |
| Utils.ExpandUrlHttpbinVector | app/utils.py:16 | as written: base `httpbin.org` and `/data/index.html` expand to `http:///data/index.html` |
| Utils.CompletedBaseFixed | app/utils.py:16-17 | corrected: the completed base carries `http://` or `https://`, and a base that has one is kept |
| Utils.ExpandUrlFixed | app/utils.py:13-28 | corrected: every expanded url carries the scheme `http://` or `https://` |
| Utils.ExpandUrlFixedAgainstHost | app/utils.py:13-28 | corrected: every plain host, including one that starts with `http`, and a plain reference expand to `http://host/ref` |
| Utils.ExpandUrlFixedJoins | app/utils.py:21-25 | corrected: a reference without an authority expands to its join with the completed base when that join carries `http://` or `https://` |
| Utils.ExpandUrlFixedHttpbinVector | app/utils.py:16 | corrected: base `httpbin.org` and `/data/index.html` expand to `http://httpbin.org/data/index.html` |
| Checks.IsUrlValid | app/checks.py:13-18 | a url that does not parse is not valid (the exception is caught), and a valid url contains `:` |
| Checks.NoColonNoScheme | app/checks.py:15 | text without `:` gets the default scheme from `urlparse` |
| Checks.NoColonInvalid | app/checks.py:16 | text without `:` is never valid |
| Checks.ValidComposed | app/checks.py:16 | `scheme://host/path` with a non-empty plain host is valid |
| Checks.ValidCwiVector | tests/test_checks.py:6 | `http://www.cwi.nl:80/%7Eguido/Python.html` is valid |
| Checks.InvalidVectors | tests/test_checks.py:7-9 | `/data/Python.html'`, `39` and `assdd3` are not valid |
| Checks.ValidStackOverflowVector | tests/test_checks.py:10 | `https://stackoverflow.com` is valid |
| Checks.FirstEntry | app/checks.py:22 | `next(iterdir(), None)` is an entry of the directory when there is one |
| Checks.IsDirEmpty | app/checks.py:21-25 | a directory is empty iff it has no entries |
| Crawling.NetlocOf | app/crawler.py:55 | `urlparse(url).netloc` succeeds iff the url parses, holds no '/', '?' or '#', and is non-empty for a valid url |
| Crawling.BaseNetloc | app/crawler.py:55 | a valid base url has a non-empty authority |
| Crawling.Decide | app/crawler.py:53-57 | the link is visited iff the join succeeds, the joined link is not crawled and its authority equals the base's; a failing join or parse is an error; otherwise the link is skipped |
| Crawling.KeptLinks | app/crawler.py:90-95 | the filter keeps no more hrefs than it is given, and every kept href is one of them and passes the test (`Keeps` for `extract_links`) |
| Crawling.FilterHrefs | app/crawler.py:86-95 | the loop keeps, in order, exactly the hrefs that are not valid urls or whose authority equals the base's |
| Crawling.KeptLinksSubsequence | app/crawler.py:86-95 | the kept hrefs are a subsequence of the hrefs |
| Crawling.KeptLinksCounts | app/crawler.py:86-95 | a kept href occurs as often as in the input, a dropped one not at all |
| Crawling.ExtractedLinks | app/crawler.py:90-95 | for `extract_links`: the result is a subsequence, and an href occurs as often as in the page when it is invalid or on the base's host, otherwise not at all |
| Crawling.ExpandLinks | app/crawler.py:66 | one entry per link, the `i`-th being `base + "/" + links[i]` |
| Crawling.Enqueue | app/crawler.py:99-103 | the `enqLinks` loop never shortens the task list and adds at most one entry per link; an error needs a link (that it only appends is `EnqueueAppends`) |
| Crawling.EnqueueStep | app/crawler.py:100-103 | one turn of the loop: a failing join stops it with that error, a successful one appends the link iff its join is neither crawled nor in the tasks |
| Crawling.EnqueueAppends | app/crawler.py:99-103 | the old tasks are kept in front, and the appended entries are a subsequence of the links |
| Crawling.EnqueueSound | app/crawler.py:101-103 | every appended entry joins successfully, and its join is neither crawled nor one of the entries before it |
| Crawling.EnqueueComplete | app/crawler.py:101-103 | when no join fails, every link whose join is neither crawled nor among the final tasks was appended |
| Crawling.EnqueueError | app/crawler.py:101 | the loop ends without an error iff every join succeeds; an error is that of the first failing link |
| Crawling.RawLinkRepeats | app/crawler.py:102-103 | the link is appended as given but its join is what gets looked up, so a link whose join differs from it is appended twice when it occurs twice |
| Crawling.RelativeLinkRepeats | app/crawler.py:102-103 | for example, `enqLinks` called directly with an unexpanded plain relative reference, given twice against `http://host`, appends it twice |
| Crawling.SelfJoiningLinkOnce | app/crawler.py:101-103 | a link that joins to itself and is not yet known is appended once when it occurs twice |
| Crawling.JoinExpandedLink | app/crawler.py:53 | `http://host/ref` joins to itself against `http://host`, and so does `http://host/ref;` minus its empty params |
| Crawling.ExpandedLinkOnce | app/crawler.py:66-68 | within `crawl`, an href expanded to `http://host/ref` joins to itself, so a repeated plain href is stored once |
| Crawling.ExpandedParamsLinkRepeats | app/crawler.py:66-68 | within `crawl`, an href `ref;` is expanded to `http://host/ref;`, which joins to `http://host/ref`: a repeated such href is stored twice |
| Crawling.ChooseFilename | app/crawler.py:116-125 | the name is `index.html` iff the directory is empty, otherwise always `file-0.html` |
| Crawling.Crawler.constructor | app/crawler.py:24-39 | a valid base url gives a crawler with that base and destination, no crawled links and no tasks |
| Crawling.Crawler.New | app/crawler.py:24-27 | construction fails, with the invalid-url error, iff the base url is not valid |
| Crawling.Crawler.ExtractLinks | app/crawler.py:76-97 | the result is the hrefs the `extract_links` filter keeps, in order |
| Crawling.Crawler.EnqLinks | app/crawler.py:99-104 | the new task list and the error are those of `Enqueue` on the old task list and the crawled set |
| Crawling.Crawler.Record | app/crawler.py:60 | the link is added to the crawled set, which stays within the base's host |
| Crawling.Crawler.FollowLinks | app/crawler.py:64-68 | the tasks become the old tasks followed by the enqueued expansions of the kept hrefs |
| Crawling.Crawler.VisitLink | app/crawler.py:57-68 | an unreachable page fails and changes nothing; a fetched page is recorded as crawled, is saved under the base's host with the chosen name, and its links are enqueued |
| Crawling.Crawler.Crawl | app/crawler.py:48-74 | a rejected url fails and a skipped url changes nothing; a visited url is handled as above; the crawled set only grows and stays within the base's host |

## Left out

- The `cli` entry point (`app/crawler.py:133-152`), logging, and the SSL context that turns off
  certificate checks. These are configuration and output, not logic.
- The network fetch (`Request`/`urlopen`/`read`). It is the input `Fetch`, so an unreachable page
  is `Unreachable`. The `URLError` handler (`app/crawler.py:70-74`) would itself fail on the
  unbound `response`; it is modelled only as the outcome `Failed(FetchFailed)`.
- HTML parsing with BeautifulSoup. The page is given as its sequence of `href` values. An anchor
  without an `href` is not represented. Its `None` fails `is_url_valid` and is kept by
  `extract_links`. `self.base_url + "/" + x` (`app/crawler.py:66`) then raises `TypeError`. By
  then the link is in `crawledLinks` and the page is saved, so nothing from that page is
  enqueued.
- The file system. `create_base_dir`, the `mkdir`, the file write and `is_dir_exists` are left
  out, as is the `pathlib` join that `save_content` performs. The model gives the target as a
  `SaveTarget` of directory name and file name, and the directory is given as its list of
  entries.
- `is_url_visited` (`app/checks.py:9-10`) has an empty body and is never called.
- `build_save_path`, which `tests/test_utils.py:21-27` tests, does not exist in `app/utils.py`
  and is not part of this model.
- `enqLinks` calls `urljoin` twice per link. It is modelled as one call, since the join is a pure
  function of its arguments.
- UrlUnsplit: follows the `urlunsplit` of CPython 3.9 and of the 3.12 releases from before its change. Later
  3.12 releases, 3.12.13 among them, differ in two branches for a url without a netloc. A path that
  starts with `//` gets another `//` in front; `UnsplitDoubleSlashPath` keeps it as it is. A scheme
  in `uses_netloc` gets `//` only when the path is empty or starts with `/`; `UnsplitEmptyAuthority`
  always writes it. The crawler's own bases always have a netloc, so `crawl` and `enqLinks` are not
  affected. `expand_url("http:foo", "bar")` is, and gives `http:///bar` here
  (`ExpandUrlAgainstSchemeOnlyBase`) but `http:bar` on those releases.
- The `urllib.parse` model is partial:
  - It leaves out the check of bracketed IPv6 hosts beyond bracket balance.
  - It leaves out the NFKC check of netlocs with non-ASCII characters.
- Work across processes, persistence of the crawled set and the tasks, and the pop side of the
  task list. The source crawls one given URL per `crawl` call; nothing in it takes work off the
  list.

## Findings

| source | as written | input that shows it | evidently intended | confidence | as-written member | corrected member |
|---|---|---|---|---|---|---|
| app/utils.py:16 | a base is taken as complete when it starts with the four letters `http`, so a bare host such as `httpbin.org` gets no `http://`; `urljoin` then reads it as a path and the host is lost | `expand_url("httpbin.org", "/data/index.html")` gives `http:///data/index.html` | `http://httpbin.org/data/index.html`: test for the prefixes `http://` and `https://` | not executed | Utils.ExpandUrlHttpbinVector | Utils.ExpandUrlFixedHttpbinVector |

=== FILE: checks.dfy ===
/** `app/checks.py`: the URL and directory predicates the crawler relies on. */
module Checks {
  import opened Wrappers
  import opened Strings
  import opened UrlParse

  /**
   * `is_url_valid`: the url parses and has both a scheme and an authority. A parse error
   * (`ValueError`) is caught and answers false, so the predicate is total.
   */
  function IsUrlValid(url: string): (r: bool)
    ensures UrlSplit(url, "").Failure? ==> !r
    ensures r ==> ':' in url
  {
    NoColonNoScheme(url, "");
    match UrlSplit(url, "")
    case Failure(_) => false
    case Success(parts) => parts.scheme != "" && parts.netloc != ""
  }

  /** Without a ':' there is no scheme: the default is kept and the text is parsed whole. */
  lemma NoColonNoScheme(url: string, default: string)
    ensures ':' !in url ==> SplitScheme(Sanitize(url), default) == (default, Sanitize(url))
    ensures ':' !in url && UrlSplit(url, default).Success? ==> UrlSplit(url, default).value.scheme == default
  {
    if ':' in url {
      return;
    }
    var stripped := LStripControls(url);
    forall x | x in stripped
      ensures x in url
    {
      var k :| 0 <= k < |stripped| && stripped[k] == x;
      assert url[|url| - |stripped| + k] == x;
    }
    assert ':' !in Sanitize(url);
  }

  /** Text without a ':' (a bare word, a number, a path) is never a valid url. */
  lemma NoColonInvalid(url: string)
    requires ':' !in url
    ensures !IsUrlValid(url)
  {
  }

  /** `scheme "://" host path` is valid for any scheme name and any non-empty plain host. */
  lemma ValidComposed(scheme: string, host: string, path: string)
    requires IsSchemeName(scheme) && host != "" && IsPlainHost(host) && IsPlainPath(path)
    requires '\t' !in host && '\r' !in host && '\n' !in host
    requires path == [] || path[0] == '/'
    ensures IsUrlValid(scheme + "://" + host + path)
  {
    SplitAbsoluteUrl(scheme, host, path, "");
    assert ':' in scheme + "://" + host + path by {
      assert (scheme + "://" + host + path)[|scheme|] == ':';
    }
  }

  // ---------------------------------------------------------------------------------------------
  // The cases of tests/test_checks.py

  /** An http url with a port in the authority and a percent-escaped path. */
  lemma ValidCwiVector(url: string, host: string, path: string)
    requires url == "http://www.cwi.nl:80/%7Eguido/Python.html"
    requires host == "www.cwi.nl:80" && path == "/%7Eguido/Python.html"
    ensures IsUrlValid(url)
  {
    assert IsSchemeName("http") && IsPlainHost(host) && IsPlainPath(path) by {
    }
    assert '\t' !in host && '\r' !in host && '\n' !in host by {
    }
    ValidComposed("http", host, path);
    CwiLiteral(url, host, path);
  }

  // A step about string literals, kept in a lemma of its own so that the proofs using it stay cheap.
  lemma CwiLiteral(url: string, host: string, path: string)
    requires url == "http://www.cwi.nl:80/%7Eguido/Python.html"
    requires host == "www.cwi.nl:80" && path == "/%7Eguido/Python.html"
    ensures "http" + "://" + host + path == url
  {
  }

  /** An https url with a host and no path. */
  lemma ValidStackOverflowVector(url: string, host: string)
    requires url == "https://stackoverflow.com" && host == "stackoverflow.com"
    ensures IsUrlValid(url)
  {
    assert IsSchemeName("https") && IsPlainHost(host) && IsPlainPath("") by {
    }
    assert '\t' !in host && '\r' !in host && '\n' !in host by {
    }
    ValidComposed("https", host, "");
    StackOverflowLiteral(url, host);
  }

  // A step about string literals, kept in a lemma of its own so that the proofs using it stay cheap.
  lemma StackOverflowLiteral(url: string, host: string)
    requires url == "https://stackoverflow.com" && host == "stackoverflow.com"
    ensures "https" + "://" + host + "" == url
  {
  }

  /** A path, a number and a word: no scheme, so not valid. */
  lemma InvalidVectors(url: string)
    requires url in {"/data/Python.html'", "39", "assdd3"}
    ensures !IsUrlValid(url)
  {
    NoColonInvalid(url);
  }

  // ---------------------------------------------------------------------------------------------
  // is_dir_empty

  /** `next(dst.iterdir(), None)`: the first directory entry, if any. */
  function FirstEntry(entries: seq<string>): (r: Option<string>)
    ensures r.Some? ==> r.value in entries
  {
    if entries == [] then None else Some(entries[0])
  }

  /** `is_dir_empty`: the directory, given by its entries, is empty iff it has no first entry. */
  function IsDirEmpty(entries: seq<string>): (r: bool)
    ensures r <==> |entries| == 0
  {
    FirstEntry(entries).None?
  }
}

=== FILE: crawler.dfy ===
/**
 * `app/crawler.py`: the bookkeeping of class `Crawler` -- the scope and duplicate gate of `crawl`,
 * the href filter of `extract_links`, the expansion of kept links, the task list of `enqLinks`
 * and the file name `save_content` picks. Fetching, HTML parsing and file writes are inputs.
 */
module Crawling {
  import opened Wrappers
  import opened Strings
  import opened UrlParse
  import opened Checks
  import opened Utils

  datatype CrawlError =
    | InvalidBaseUrl            // `ValueError("Invalid URL.")` from the constructor
    | JoinFailed(cause: UrlError) // `ValueError` from `urljoin` or `urlparse`, not caught by `crawl`
    | FetchFailed               // `URLError`: its handler then fails on an unbound `response`

  /** What fetching and parsing a link gives: the `href` of every anchor, or a `URLError`. */
  datatype Fetch = Page(hrefs: seq<string>) | Unreachable

  /** The file `save_content` writes: `<dst>/<siteDir>/<fileName>`. */
  datatype SaveTarget = SaveTarget(siteDir: string, fileName: string)

  datatype CrawlOutcome =
    | Skipped
    | Crawled(target: SaveTarget, enqueueError: Option<UrlError>)
    | Failed(error: CrawlError)

  /** `urlparse(url).netloc`, or the parse error; a valid url has a non-empty one. */
  function NetlocOf(url: string): (r: Result<string, UrlError>)
    ensures r.Success? <==> UrlSplit(url, "").Success?
    ensures r.Success? ==> forall c :: c in r.value ==> c !in AuthorityEnd
    ensures IsUrlValid(url) ==> r.Success? && r.value != ""
  {
    var parts :- UrlSplit(url, "");
    Success(parts.netloc)
  }

  /** The authority of a valid base url. */
  function BaseNetloc(base: string): (r: string)
    requires IsUrlValid(base)
    ensures r != "" && NetlocOf(base) == Success(r)
  {
    UrlSplit(base, "").value.netloc
  }

  // ---------------------------------------------------------------------------------------------
  // The gate of `crawl`

  /** What `crawl` decides for a url before fetching: fail, skip, or visit the joined link. */
  datatype Decision = Reject(cause: UrlError) | Skip | Visit(link: string)

  /**
   * `crawl` joins the url to the base and visits the result only when it has the base's
   * authority and has not been crawled yet.
   */
  function Decide(base: string, crawled: set<string>, url: string): (d: Decision)
    requires IsUrlValid(base)
    ensures d.Visit? <==>
      UrlJoin(base, url).Success? && UrlJoin(base, url).value !in crawled
      && NetlocOf(UrlJoin(base, url).value) == Success(BaseNetloc(base))
    ensures d.Visit? ==> d.link == UrlJoin(base, url).value
    ensures d.Reject? <==> UrlJoin(base, url).Failure? || NetlocOf(UrlJoin(base, url).value).Failure?
  {
    match UrlJoin(base, url)
    case Failure(e) => Reject(e)
    case Success(link) =>
      var isCrawled := link !in crawled;  // named as in the source: true when not yet crawled
      match NetlocOf(link)
      case Failure(e) => Reject(e)
      case Success(netloc) =>
        var isBelongBase := netloc == BaseNetloc(base);
        if isBelongBase && isCrawled then Visit(link) else Skip
  }

  // ---------------------------------------------------------------------------------------------
  // extract_links

  /**
   * The test of `extract_links`, given the validity test and the authority of a url: an href is
   * kept unless it is valid and its authority differs from the base's. The loop of `FilterHrefs`
   * is proved against this form, over function parameters, because proving it against `Keeps`
   * directly unfolds the url parser at every step and exceeds the solver's budget;
   * `KeptLinksAgree` shows both give the same links.
   */
  function FilterOf(valid: string -> bool, netloc: string -> Result<string, UrlError>, base: string): string -> bool
  {
    href => !valid(href) || netloc(href) == netloc(base)
  }

  /** An href survives `extract_links` unless it is a valid url with another authority. */
  predicate Keeps(base: string, href: string)
  {
    !IsUrlValid(href) || NetlocOf(href) == NetlocOf(base)
  }

  /** The filter `extract_links` applies for a base url. */
  function ExtractFilter(base: string): string -> bool
  {
    href => Keeps(base, href)
  }

  /** The hrefs a filter keeps, in order. */
  function KeptLinks(keep: string -> bool, hrefs: seq<string>): (r: seq<string>)
    ensures |r| <= |hrefs|
    ensures forall href :: href in r ==> href in hrefs && keep(href)
  {
    if hrefs == [] then []
    else (if keep(hrefs[0]) then [hrefs[0]] else []) + KeptLinks(keep, hrefs[1..])
  }

  /** Filtering one more href appends it when it is kept. */
  lemma {:induction false} KeptLinksSnoc(keep: string -> bool, hrefs: seq<string>, href: string)
    ensures KeptLinks(keep, hrefs + [href]) == KeptLinks(keep, hrefs) + (if keep(href) then [href] else [])
  {
    if hrefs != [] {
      assert (hrefs + [href])[1..] == hrefs[1..] + [href];
      KeptLinksSnoc(keep, hrefs[1..], href);
    } else {
      assert [href][1..] == [];
    }
  }

  /** Two filters that agree on every href keep the same hrefs. */
  lemma {:induction false} KeptLinksAgree(keep1: string -> bool, keep2: string -> bool, hrefs: seq<string>)
    requires forall href :: href in hrefs ==> keep1(href) == keep2(href)
    ensures KeptLinks(keep1, hrefs) == KeptLinks(keep2, hrefs)
  {
    if hrefs != [] {
      KeptLinksAgree(keep1, keep2, hrefs[1..]);
    }
  }

  /** The same step, stated on prefixes of one list, as a loop over it takes it. */
  lemma KeptLinksStep(keep: string -> bool, hrefs: seq<string>, i: nat)
    requires i < |hrefs|
    ensures KeptLinks(keep, hrefs[..i + 1]) == KeptLinks(keep, hrefs[..i]) + (if keep(hrefs[i]) then [hrefs[i]] else [])
  {
    assert hrefs[..i + 1] == hrefs[..i] + [hrefs[i]];
    KeptLinksSnoc(keep, hrefs[..i], hrefs[i]);
  }

  /** The result is an order-preserving subsequence of the hrefs. */
  lemma {:induction false} KeptLinksSubsequence(keep: string -> bool, hrefs: seq<string>)
    ensures IsSubsequence(KeptLinks(keep, hrefs), hrefs)
  {
    if hrefs != [] {
      KeptLinksSubsequence(keep, hrefs[1..]);
      var rest := KeptLinks(keep, hrefs[1..]);
      if keep(hrefs[0]) {
        assert ([hrefs[0]] + rest)[1..] == rest;
      } else {
        assert KeptLinks(keep, hrefs) == rest;
        SubsequenceOfTail(rest, hrefs);
      }
    }
  }

  /** Exactly the rejected hrefs are dropped: every kept href stays as many times as it occurs. */
  lemma {:induction false} KeptLinksCounts(keep: string -> bool, hrefs: seq<string>, href: string)
    ensures multiset(KeptLinks(keep, hrefs))[href] == if keep(href) then multiset(hrefs)[href] else 0
  {
    if hrefs != [] {
      KeptLinksCounts(keep, hrefs[1..], href);
      assert hrefs == [hrefs[0]] + hrefs[1..];
    }
  }

  /**
   * For `extract_links`: a valid url with the base's authority and every href that is not a valid
   * url are kept, in order and with their multiplicity; a valid url of another authority is dropped.
   */
  lemma ExtractedLinks(base: string, hrefs: seq<string>, href: string)
    ensures IsSubsequence(KeptLinks(ExtractFilter(base), hrefs), hrefs)
    ensures multiset(KeptLinks(ExtractFilter(base), hrefs))[href] ==
      if !IsUrlValid(href) || NetlocOf(href) == NetlocOf(base) then multiset(hrefs)[href] else 0
  {
    KeptLinksSubsequence(ExtractFilter(base), hrefs);
    KeptLinksCounts(ExtractFilter(base), hrefs, href);
  }

  /** The loop of `extract_links`, over the validity test and the authority of a url. */
  method FilterHrefs(valid: string -> bool, netloc: string -> Result<string, UrlError>, base: string, hrefs: seq<string>)
    returns (res: seq<string>)
    ensures res == KeptLinks(FilterOf(valid, netloc, base), hrefs)
  {
    res := [];
    var i := 0;
    while i < |hrefs|
      invariant 0 <= i <= |hrefs|
      invariant res == KeptLinks(FilterOf(valid, netloc, base), hrefs[..i])
    {
      var url := hrefs[i];
      KeptLinksStep(FilterOf(valid, netloc, base), hrefs, i);
      if valid(url) {
        if netloc(url) == netloc(base) {
          res := res + [url];
        }
      } else {
        res := res + [url];
      }
      i := i + 1;
    }
    assert hrefs[..i] == hrefs;
  }

  // ---------------------------------------------------------------------------------------------
  // Link expansion and enqLinks

  /** `[base_url + "/" + x for x in links]` */
  function ExpandLinks(base: string, links: seq<string>): (r: seq<string>)
    ensures |r| == |links|
    ensures forall i :: 0 <= i < |links| ==> r[i] == base + "/" + links[i]
  {
    if links == [] then [] else [base + "/" + links[0]] + ExpandLinks(base, links[1..])
  }

  /** The task list after `enqLinks`, and the error that stopped it, if any. */
  datatype Enqueued = Enqueued(tasks: seq<string>, error: Option<UrlError>)

  /**
   * `enqLinks`: each link, in order, is appended as given when its join with the base is neither
   * crawled nor in the task list; a failing join stops the loop with the tasks appended so far.
   */
  function Enqueue(join: (string, string) -> Result<string, UrlError>, base: string, crawled: set<string>, tasks: seq<string>, links: seq<string>): (r: Enqueued)
    decreases |links|
    ensures |tasks| <= |r.tasks| <= |tasks| + |links|
    ensures r.error.Some? ==> links != []
  {
    if links == [] then Enqueued(tasks, None)
    else
      match join(base, links[0])
      case Failure(e) => Enqueued(tasks, Some(e))
      case Success(joined) =>
        var tasks' := if joined !in crawled && joined !in tasks then tasks + [links[0]] else tasks;
        Enqueue(join, base, crawled, tasks', links[1..])
  }

  /** One turn of the loop: a failing join stops it, a successful one may append the link. */
  lemma EnqueueStep(join: (string, string) -> Result<string, UrlError>, base: string, crawled: set<string>, tasks: seq<string>, links: seq<string>, i: nat)
    requires i < |links|
    ensures join(base, links[i]).Failure? ==>
      Enqueue(join, base, crawled, tasks, links[i..]) == Enqueued(tasks, Some(join(base, links[i]).error))
    ensures join(base, links[i]).Success? ==>
      var joined := join(base, links[i]).value;
      Enqueue(join, base, crawled, tasks, links[i..]) ==
        Enqueue(join, base, crawled, if joined !in crawled && joined !in tasks then tasks + [links[i]] else tasks, links[i + 1..])
  {
    assert links[i..][1..] == links[i + 1..];
  }

  /** Only appends: the old tasks stay in front, and what follows is a subsequence of the links. */
  lemma {:induction false} EnqueueAppends(join: (string, string) -> Result<string, UrlError>, base: string, crawled: set<string>, tasks: seq<string>, links: seq<string>)
    decreases |links|
    ensures var r := Enqueue(join, base, crawled, tasks, links);
      tasks <= r.tasks && IsSubsequence(r.tasks[|tasks|..], links)
  {
    if links != [] && join(base, links[0]).Success? {
      var joined := join(base, links[0]).value;
      var r := Enqueue(join, base, crawled, tasks, links);
      if joined !in crawled && joined !in tasks {
        EnqueueAppends(join, base, crawled, tasks + [links[0]], links[1..]);
        assert r.tasks[|tasks|..] == [links[0]] + r.tasks[|tasks| + 1..];
      } else {
        EnqueueAppends(join, base, crawled, tasks, links[1..]);
        SubsequenceOfTail(r.tasks[|tasks|..], links);
      }
    }
  }

  /**
   * Every appended entry joins successfully, its join was not crawled, and its join is not among
   * the entries before it.
   */
  lemma {:induction false} EnqueueSound(join: (string, string) -> Result<string, UrlError>, base: string, crawled: set<string>, tasks: seq<string>, links: seq<string>, k: int)
    decreases |links|
    requires |tasks| <= k < |Enqueue(join, base, crawled, tasks, links).tasks|
    ensures var r := Enqueue(join, base, crawled, tasks, links);
      join(base, r.tasks[k]).Success? && join(base, r.tasks[k]).value !in crawled && join(base, r.tasks[k]).value !in r.tasks[..k]
  {
    EnqueueAppends(join, base, crawled, tasks, links);
    var r := Enqueue(join, base, crawled, tasks, links);
    // With no link, or a first join that fails, nothing is appended and no such k exists.
    if links != [] && join(base, links[0]).Success? {
      var joined := join(base, links[0]).value;
      if joined !in crawled && joined !in tasks {
        assert r == Enqueue(join, base, crawled, tasks + [links[0]], links[1..]);
        EnqueueAppends(join, base, crawled, tasks + [links[0]], links[1..]);
        if k == |tasks| {
          assert r.tasks[k] == links[0];
          assert r.tasks[..k] == tasks;
        } else {
          EnqueueSound(join, base, crawled, tasks + [links[0]], links[1..], k);
        }
      } else {
        assert r == Enqueue(join, base, crawled, tasks, links[1..]);
        EnqueueSound(join, base, crawled, tasks, links[1..], k);
      }
    }
  }

  /**
   * When no join fails, every link whose join is in neither the crawled set nor the final task
   * list has been appended.
   */
  lemma {:induction false} EnqueueComplete(join: (string, string) -> Result<string, UrlError>, base: string, crawled: set<string>, tasks: seq<string>, links: seq<string>)
    decreases |links|
    ensures var r := Enqueue(join, base, crawled, tasks, links);
      r.error.None? ==> forall i :: 0 <= i < |links| ==>
        join(base, links[i]).Success?
        && (join(base, links[i]).value !in crawled && join(base, links[i]).value !in r.tasks ==> links[i] in r.tasks)
  {
    if links != [] && join(base, links[0]).Success? {
      var joined := join(base, links[0]).value;
      var r := Enqueue(join, base, crawled, tasks, links);
      var tasks' := if joined !in crawled && joined !in tasks then tasks + [links[0]] else tasks;
      EnqueueComplete(join, base, crawled, tasks', links[1..]);
      EnqueueAppends(join, base, crawled, tasks', links[1..]);
      if r.error.None? {
        forall i | 0 <= i < |links|
          ensures join(base, links[i]).Success?
          ensures join(base, links[i]).value !in crawled && join(base, links[i]).value !in r.tasks ==> links[i] in r.tasks
        {
          if i == 0 {
            if joined !in crawled && joined !in r.tasks {
              assert joined !in tasks;
              assert r.tasks[|tasks|] == links[0];
            }
          } else {
            assert links[i] == links[1..][i - 1];
          }
        }
      }
    }
  }

  /** Link `i` is the first whose join fails. */
  predicate FailsFirstAt(join: (string, string) -> Result<string, UrlError>, base: string, links: seq<string>, i: int)
  {
    0 <= i < |links| && join(base, links[i]).Failure? && forall k :: 0 <= k < i ==> join(base, links[k]).Success?
  }

  /** The loop stops at the first link whose join fails, with that error, and only then. */
  lemma {:induction false} EnqueueError(join: (string, string) -> Result<string, UrlError>, base: string, crawled: set<string>, tasks: seq<string>, links: seq<string>)
    decreases |links|
    ensures var r := Enqueue(join, base, crawled, tasks, links);
      r.error.None? <==> forall i :: 0 <= i < |links| ==> join(base, links[i]).Success?
    ensures var r := Enqueue(join, base, crawled, tasks, links);
      r.error.Some? ==> exists i :: FailsFirstAt(join, base, links, i) && join(base, links[i]).error == r.error.value
  {
    if links != [] {
      var r := Enqueue(join, base, crawled, tasks, links);
      if join(base, links[0]).Failure? {
        assert FailsFirstAt(join, base, links, 0);
      } else {
        var joined := join(base, links[0]).value;
        var tasks' := if joined !in crawled && joined !in tasks then tasks + [links[0]] else tasks;
        EnqueueError(join, base, crawled, tasks', links[1..]);
        assert forall i :: 0 < i < |links| ==> links[i] == links[1..][i - 1];
        if r.error.Some? {
          var i :| FailsFirstAt(join, base, links[1..], i) && join(base, links[1..][i]).error == r.error.value;
          assert FailsFirstAt(join, base, links, i + 1);
        }
      }
    }
  }

  /**
   * The membership test uses the joined form while the raw link is stored: a link whose join
   * differs from it is appended again every time it comes.
   */
  lemma RawLinkRepeats(join: (string, string) -> Result<string, UrlError>, base: string, crawled: set<string>, tasks: seq<string>, link: string)
    requires join(base, link).Success? && join(base, link).value != link
    requires join(base, link).value !in crawled && join(base, link).value !in tasks
    ensures Enqueue(join, base, crawled, tasks, [link, link]) == Enqueued(tasks + [link, link], None)
  {
    var joined := join(base, link).value;
    assert [link, link][1..] == [link];
    assert joined !in tasks + [link];
    assert [link][1..] == [];
    assert Enqueue(join, base, crawled, tasks + [link], [link]) == Enqueue(join, base, crawled, tasks + [link, link], []);
  }

  /**
   * For instance `enqLinks` called directly with an unexpanded relative link "dk" against
   * "http://BBB": its join "http://BBB/dk" is never in the task list, so "dk" is stored twice.
   * Within `crawl` links are expanded first; see `ExpandedLinkOnce` and `ExpandedParamsLinkRepeats`.
   */
  lemma RelativeLinkRepeats(host: string, ref: string, crawled: set<string>, tasks: seq<string>)
    requires IsPlainAuthority(host) && IsPlainReference(ref)
    requires UrlJoin("http://" + host, ref).Success?
    requires UrlJoin("http://" + host, ref).value !in crawled && UrlJoin("http://" + host, ref).value !in tasks
    ensures Enqueue(UrlJoin, "http://" + host, crawled, tasks, [ref, ref]) == Enqueued(tasks + [ref, ref], None)
  {
    JoinAgainstHost(host, ref);
    RawLinkRepeats(UrlJoin, "http://" + host, crawled, tasks, ref);
  }

  /** A link that joins to itself is looked up as it is stored, so a repeat of it is not stored again. */
  lemma SelfJoiningLinkOnce(join: (string, string) -> Result<string, UrlError>, base: string, crawled: set<string>, tasks: seq<string>, link: string)
    requires join(base, link) == Success(link)
    requires link !in crawled && link !in tasks
    ensures Enqueue(join, base, crawled, tasks, [link, link]) == Enqueued(tasks + [link], None)
  {
    assert [link, link][1..] == [link];
    assert link in tasks + [link];
    assert [link][1..] == [];
    assert Enqueue(join, base, crawled, tasks + [link], [link]) == Enqueue(join, base, crawled, tasks + [link], []);
  }

  /**
   * Within `crawl` an href "dk" found on "http://BBB" is expanded to "http://BBB/dk"
   * (`app/crawler.py:66`), which joins to itself: a repeated plain href is stored once.
   */
  lemma ExpandedLinkOnce(host: string, ref: string, crawled: set<string>, tasks: seq<string>)
    requires IsPlainAuthority(host) && IsPlainReference(ref) && ref[0] != '/'
    requires "http://" + host + "/" + ref !in crawled && "http://" + host + "/" + ref !in tasks
    ensures var link := ExpandLinks("http://" + host, [ref])[0];
      UrlJoin("http://" + host, link) == Success(link)
      && Enqueue(UrlJoin, "http://" + host, crawled, tasks, [link, link]) == Enqueued(tasks + [link], None)
  {
    var link := "http://" + host + "/" + ref;
    JoinExpandedLink(host, ref, "");
    assert ref + "" == ref;
    SelfJoiningLinkOnce(UrlJoin, "http://" + host, crawled, tasks, link);
  }

  /**
   * An href with empty `;params`, such as "dk;" found on "http://BBB", is expanded to
   * "http://BBB/dk;", whose join "http://BBB/dk" drops the ';': the expanded link is stored
   * again every time the href comes.
   */
  lemma ExpandedParamsLinkRepeats(host: string, ref: string, crawled: set<string>, tasks: seq<string>)
    requires IsPlainAuthority(host) && IsPlainReference(ref) && ref[0] != '/'
    requires "http://" + host + "/" + ref !in crawled && "http://" + host + "/" + ref !in tasks
    ensures var link := ExpandLinks("http://" + host, [ref + ";"])[0];
      UrlJoin("http://" + host, link) == Success("http://" + host + "/" + ref)
      && Enqueue(UrlJoin, "http://" + host, crawled, tasks, [link, link]) == Enqueued(tasks + [link, link], None)
  {
    var link := "http://" + host + "/" + (ref + ";");
    JoinExpandedLink(host, ref, ";");
    assert |link| != |"http://" + host + "/" + ref|;
    RawLinkRepeats(UrlJoin, "http://" + host, crawled, tasks, link);
  }

  /** `urljoin("http://" + host, "http://" + host + "/" + ref + params)` for no params or empty ones. */
  lemma JoinExpandedLink(host: string, ref: string, params: string)
    requires IsPlainAuthority(host) && IsPlainReference(ref) && ref[0] != '/'
    requires params == "" || params == ";"
    ensures UrlJoin("http://" + host, "http://" + host + "/" + (ref + params)) == Success("http://" + host + "/" + ref)
  {
    var path := "/" + (ref + params);
    var url := "http://" + host + path;
    assert "http://" + host + "/" + (ref + params) == url;
    assert "http://" + host + ("/" + ref) == "http://" + host + "/" + ref;
    ExpandedParams(ref, params);
    HttpBase(host);
    SplitHttpUrl(host, path);
    HttpSchemeClasses();
    JoinWithAuthority("http://" + host, url);
    SplitHttpUrl(host, "/" + ref);
  }

  /** "http://" + host + path splits into its host and path, and re-assembles as it was. */
  lemma SplitHttpUrl(host: string, path: string)
    requires IsPlainAuthority(host) && IsPlainPath(path) && path != [] && path[0] == '/'
    ensures UrlSplit("http://" + host + path, "http") == Success(SplitResult("http", host, path, "", ""))
    ensures UrlUnsplit(SplitResult("http", host, path, "", "")) == "http://" + host + path
  {
    HttpSchemeName();
    HttpLiteral(host, path);
    SplitAbsoluteUrl("http", host, path, "http");
  }

  /** The path of an expanded link, cut at its last segment's ';' when it has one. */
  lemma ExpandedParams(ref: string, params: string)
    requires IsPlainReference(ref) && (params == "" || params == ";")
    ensures IsPlainPath("/" + (ref + params)) && IsPlainPath("/" + ref)
    ensures SplitParams("http", "/" + (ref + params)) == ("/" + ref, "")
  {
    assert IsPlainPath(ref + params) by {
      assert forall i :: 0 <= i < |ref| ==> (ref + params)[i] == ref[i];
    }
    RootedPlainPath(ref + params);
    RootedPlainPath(ref);
    assert SplitParams("http", "/" + (ref + params)) == ("/" + ref, "") by {
      if params == "" {
        assert "/" + (ref + params) == "/" + ref;
      } else {
        assert "/" + (ref + params) == ("/" + ref) + [';'];
        assert ';' !in "/" + ref;
        TrailingParams("http", "/" + ref);
      }
    }
  }

  lemma RootedPlainPath(path: string)
    requires IsPlainPath(path)
    ensures IsPlainPath("/" + path)
  {
    assert forall i :: 0 < i <= |path| ==> ("/" + path)[i] == path[i - 1];
  }

  // ---------------------------------------------------------------------------------------------
  // save_content

  /** The file name: "index.html" in an empty directory, otherwise "file-0.html" (`idx` stays 0). */
  function ChooseFilename(entries: seq<string>): (name: string)
    ensures name == "index.html" <==> entries == []
    ensures name != "index.html" ==> name == "file-0.html"
  {
    var idx := "0";
    if IsDirEmpty(entries) then "index.html" else "file-" + idx + ".html"
  }

  // ---------------------------------------------------------------------------------------------
  // The crawler

  class Crawler {
    const baseUrl: string
    const baseDst: string
    var crawledLinks: set<string>
    var tasks: seq<string>

    /** The base is valid and every crawled link lies under the base's authority. */
    predicate Valid()
      reads this`crawledLinks
    {
      IsUrlValid(baseUrl) && forall link :: link in crawledLinks ==> NetlocOf(link) == NetlocOf(baseUrl)
    }

    constructor(baseUrl: string, dst: string)
      requires IsUrlValid(baseUrl)
      ensures Valid()
      ensures this.baseUrl == baseUrl && baseDst == dst
      ensures crawledLinks == {} && tasks == []
    {
      this.baseUrl := baseUrl;
      this.baseDst := dst;
      crawledLinks := {};
      tasks := [];
    }

    /** `Crawler(base_url, dst)`: raises `ValueError` for an invalid base url, before any field is set. */
    static method New(baseUrl: string, dst: string) returns (r: Result<Crawler, CrawlError>)
      ensures r.Failure? <==> !IsUrlValid(baseUrl)
      ensures r.Failure? ==> r.error == InvalidBaseUrl
      ensures r.Success? ==>
        fresh(r.value) && r.value.Valid() && r.value.baseUrl == baseUrl && r.value.baseDst == dst
        && r.value.crawledLinks == {} && r.value.tasks == []
    {
      if !IsUrlValid(baseUrl) {
        return Failure(InvalidBaseUrl);
      }
      var crawler := new Crawler(baseUrl, dst);
      return Success(crawler);
    }

    /** `extract_links`: the hrefs that are not valid urls of another authority, in order. */
    method ExtractLinks(hrefs: seq<string>) returns (res: seq<string>)
      ensures res == KeptLinks(ExtractFilter(baseUrl), hrefs)
    {
      res := FilterHrefs(IsUrlValid, NetlocOf, baseUrl, hrefs);
      KeptLinksAgree(FilterOf(IsUrlValid, NetlocOf, baseUrl), ExtractFilter(baseUrl), hrefs);
    }

    /** `enqLinks`: appends to `tasks` as `Enqueue` describes; `crawledLinks` is left alone. */
    method EnqLinks(links: seq<string>) returns (error: Option<UrlError>)
      modifies this`tasks
      ensures tasks == Enqueue(UrlJoin, baseUrl, crawledLinks, old(tasks), links).tasks
      ensures error == Enqueue(UrlJoin, baseUrl, crawledLinks, old(tasks), links).error
    {
      var i := 0;
      while i < |links|
        invariant 0 <= i <= |links|
        invariant Enqueue(UrlJoin, baseUrl, crawledLinks, tasks, links[i..]) == Enqueue(UrlJoin, baseUrl, crawledLinks, old(tasks), links)
      {
        var joined := UrlJoin(baseUrl, links[i]);
        EnqueueStep(UrlJoin, baseUrl, crawledLinks, tasks, links, i);
        if joined.Failure? {
          return Some(joined.error);
        }
        if joined.value !in crawledLinks {
          if joined.value !in tasks {
            tasks := tasks + [links[i]];
          }
        }
        i := i + 1;
      }
      return None;
    }

    /** `self.crawledLinks.add(link)` for a link under the base's authority. */
    method Record(link: string)
      requires Valid() && NetlocOf(link) == NetlocOf(baseUrl)
      modifies this`crawledLinks
      ensures Valid() && crawledLinks == old(crawledLinks) + {link}
    {
      crawledLinks := crawledLinks + {link};
    }

    /** The links of a fetched page, as `crawl` follows them: kept, expanded, then enqueued. */
    method FollowLinks(hrefs: seq<string>) returns (error: Option<UrlError>)
      modifies this`tasks
      ensures var r := Enqueue(UrlJoin, baseUrl, crawledLinks, old(tasks),
                               ExpandLinks(baseUrl, KeptLinks(ExtractFilter(baseUrl), hrefs)));
        tasks == r.tasks && error == r.error
    {
      var links := ExtractLinks(hrefs);
      links := ExpandLinks(baseUrl, links);
      error := EnqLinks(links);
    }

    /**
     * The visit in `crawl` once the joined link has passed the gate: an unreachable link fails;
     * otherwise the link is recorded, the page's target file is chosen, and its links are followed.
     */
    method VisitLink(link: string, fetch: Fetch, siteEntries: seq<string>) returns (outcome: CrawlOutcome)
      requires Valid() && NetlocOf(link) == NetlocOf(baseUrl)
      modifies this
      ensures Valid()
      ensures fetch.Unreachable? ==>
        outcome == Failed(FetchFailed) && crawledLinks == old(crawledLinks) && tasks == old(tasks)
      ensures fetch.Page? ==>
        var r := Enqueue(UrlJoin, baseUrl, crawledLinks, old(tasks),
                         ExpandLinks(baseUrl, KeptLinks(ExtractFilter(baseUrl), fetch.hrefs)));
        crawledLinks == old(crawledLinks) + {link} && tasks == r.tasks
        && outcome == Crawled(SaveTarget(BaseNetloc(baseUrl), ChooseFilename(siteEntries)), r.error)
    {
      if fetch.Unreachable? {
        return Failed(FetchFailed);
      }
      Record(link);
      var target := SaveTarget(NetlocOf(link).value, ChooseFilename(siteEntries));
      var error := FollowLinks(fetch.hrefs);
      outcome := Crawled(target, error);
    }

    /**
     * `crawl(url)` given what fetching the joined link yields and what the site directory holds:
     * a rejected join fails, a link that is out of scope or already crawled is skipped, and any
     * other is visited.
     */
    method Crawl(url: string, fetch: Fetch, siteEntries: seq<string>) returns (outcome: CrawlOutcome)
      requires Valid()
      modifies this
      ensures Valid()
      ensures old(crawledLinks) <= crawledLinks
      ensures match Decide(baseUrl, old(crawledLinks), url)
        case Reject(e) =>
          outcome == Failed(JoinFailed(e)) && crawledLinks == old(crawledLinks) && tasks == old(tasks)
        case Skip =>
          outcome == Skipped && crawledLinks == old(crawledLinks) && tasks == old(tasks)
        case Visit(link) =>
          if fetch.Unreachable? then
            outcome == Failed(FetchFailed) && crawledLinks == old(crawledLinks) && tasks == old(tasks)
          else
            var r := Enqueue(UrlJoin, baseUrl, crawledLinks, old(tasks),
                             ExpandLinks(baseUrl, KeptLinks(ExtractFilter(baseUrl), fetch.hrefs)));
            crawledLinks == old(crawledLinks) + {link} && tasks == r.tasks
            && outcome == Crawled(SaveTarget(BaseNetloc(baseUrl), ChooseFilename(siteEntries)), r.error)
    {
      match Decide(baseUrl, crawledLinks, url)
      case Reject(e) =>
        outcome := Failed(JoinFailed(e));
      case Skip =>
        outcome := Skipped;
      case Visit(link) =>
        outcome := VisitLink(link, fetch, siteEntries);
    }
  }
}

=== FILE: strings.dfy ===
/** The few Python `str` operations the crawler and `urllib.parse` rely on. */
module Strings {

  /** `s.startswith(prefix)` */
  predicate StartsWith(s: string, prefix: string)
  {
    |prefix| <= |s| && s[..|prefix|] == prefix
  }

  /** `s.endswith(suffix)` */
  predicate EndsWith(s: string, suffix: string)
  {
    |suffix| <= |s| && s[|s| - |suffix|..] == suffix
  }

  /** A concatenation starts with its first part and ends with its second. */
  lemma ConcatAffixes(a: string, b: string)
    ensures StartsWith(a + b, a) && EndsWith(a + b, b)
  {
    assert (a + b)[..|a|] == a;
    assert (a + b)[|a|..] == b;
  }

  /** `s.find(c)`: the index of the first `c` in `s`, or -1 when there is none. */
  function Find(s: string, c: char): (r: int)
    ensures -1 <= r < |s|
    ensures r == -1 <==> c !in s
    ensures 0 <= r ==> s[r] == c && c !in s[..r]
  {
    if s == [] then -1
    else if s[0] == c then 0
    else
      var k := Find(s[1..], c);
      if k == -1 then -1
      else
        assert s[..k + 1] == [s[0]] + s[1..][..k];
        k + 1
  }

  /** The position of the first character of `s` that belongs to `cs`, or `|s|`. */
  function FirstOfAny(s: string, cs: set<char>): (r: nat)
    ensures r <= |s|
    ensures forall i :: 0 <= i < r ==> s[i] !in cs
    ensures r < |s| ==> s[r] in cs
  {
    if s == [] || s[0] in cs then 0 else 1 + FirstOfAny(s[1..], cs)
  }

  /** `s.split(c, 1)` read as a pair: the part before the first `c` and the part after it. */
  function SplitAtFirst(s: string, c: char): (r: (string, string))
    ensures c !in r.0
    ensures c in s ==> s == r.0 + [c] + r.1
    ensures c !in s ==> r == (s, "")
  {
    var i := Find(s, c);
    if i < 0 then (s, "")
    else
      assert s == s[..i] + [c] + s[i + 1..];
      (s[..i], s[i + 1..])
  }

  /** `s.replace(c, "")` for a single character `c`. */
  function RemoveChar(s: string, c: char): (r: string)
    ensures |r| <= |s|
    ensures forall x :: x in r <==> x in s && x != c
  {
    if s == [] then []
    else
      assert s == [s[0]] + s[1..];
      (if s[0] == c then [] else [s[0]]) + RemoveChar(s[1..], c)
  }

  lemma {:induction false} RemoveCharAbsent(s: string, c: char)
    requires c !in s
    ensures RemoveChar(s, c) == s
  {
    if s != [] {
      RemoveCharAbsent(s[1..], c);
    }
  }

  lemma {:induction false} RemoveCharConcat(a: string, b: string, c: char)
    ensures RemoveChar(a + b, c) == RemoveChar(a, c) + RemoveChar(b, c)
  {
    if a != [] {
      assert (a + b)[0] == a[0];
      assert (a + b)[1..] == a[1..] + b;
      RemoveCharConcat(a[1..], b, c);
      assert RemoveChar(a + b, c) == (if a[0] == c then [] else [a[0]]) + RemoveChar(a[1..] + b, c);
      assert RemoveChar(a, c) == (if a[0] == c then [] else [a[0]]) + RemoveChar(a[1..], c);
    } else {
      assert a + b == b;
    }
  }

  /** Removing `c` keeps every other character, as many times as it occurs. */
  lemma {:induction false} RemoveCharCounts(s: string, c: char)
    ensures forall x :: x != c ==> multiset(RemoveChar(s, c))[x] == multiset(s)[x]
    ensures multiset(RemoveChar(s, c))[c] == 0
  {
    if s != [] {
      RemoveCharCounts(s[1..], c);
      assert s == [s[0]] + s[1..];
      var head := if s[0] == c then [] else [s[0]];
      assert RemoveChar(s, c) == head + RemoveChar(s[1..], c);
      assert multiset(RemoveChar(s, c)) == multiset(head) + multiset(RemoveChar(s[1..], c));
      assert multiset(s) == multiset([s[0]]) + multiset(s[1..]);
    }
  }

  /** `a` can be obtained from `b` by deleting elements (order is kept). */
  predicate IsSubsequence<T(==)>(a: seq<T>, b: seq<T>)
    decreases |b|
  {
    if a == [] then true
    else if b == [] then false
    else if a[0] == b[0] then IsSubsequence(a[1..], b[1..])
    else IsSubsequence(a, b[1..])
  }

  lemma {:induction false} SubsequenceOfTail<T>(a: seq<T>, b: seq<T>)
    requires |b| > 0 && IsSubsequence(a, b[1..])
    ensures IsSubsequence(a, b)
    decreases |b|, |a|
  {
    if a != [] && a[0] == b[0] {
      SubsequenceDropHead(a, b[1..]);
    }
  }

  lemma {:induction false} SubsequenceDropHead<T>(a: seq<T>, b: seq<T>)
    requires a != [] && IsSubsequence(a, b)
    ensures IsSubsequence(a[1..], b)
    decreases |b|, |a|
  {
    if a[0] == b[0] {
      if a[1..] != [] {
        SubsequenceOfTail(a[1..], b);
      }
    } else {
      SubsequenceDropHead(a, b[1..]);
      if a[1..] != [] {
        SubsequenceOfTail(a[1..], b);
      }
    }
  }

  lemma {:induction false} RemoveCharSubsequence(s: string, c: char)
    ensures IsSubsequence(RemoveChar(s, c), s)
  {
    if s != [] {
      RemoveCharSubsequence(s[1..], c);
      if s[0] == c {
        assert RemoveChar(s, c) == RemoveChar(s[1..], c);
        SubsequenceOfTail(RemoveChar(s, c), s);
      } else {
        assert RemoveChar(s, c)[1..] == RemoveChar(s[1..], c);
      }
    }
  }

  lemma {:induction false} SubsequenceTransitive<T>(a: seq<T>, b: seq<T>, c: seq<T>)
    requires IsSubsequence(a, b) && IsSubsequence(b, c)
    ensures IsSubsequence(a, c)
    decreases |c|
  {
    if a != [] {
      assert b != [] && c != [];
      if b[0] == c[0] {
        if a[0] == b[0] {
          SubsequenceTransitive(a[1..], b[1..], c[1..]);
        } else {
          SubsequenceTransitive(a, b[1..], c[1..]);
        }
      } else {
        SubsequenceTransitive(a, b, c[1..]);
        SubsequenceOfTail(a, c);
      }
    }
  }

  /** `s.split(c)`: the pieces between occurrences of `c`; never empty. */
  function SplitOn(s: string, c: char): (parts: seq<string>)
    ensures |parts| >= 1
    ensures forall i :: 0 <= i < |parts| ==> c !in parts[i]
  {
    if s == [] then [""]
    else
      var rest := SplitOn(s[1..], c);
      if s[0] == c then [""] + rest
      else [[s[0]] + rest[0]] + rest[1..]
  }

  /** A string without the separator is a single piece. */
  lemma {:induction false} SplitOnAbsent(a: string, c: char)
    requires c !in a
    ensures SplitOn(a, c) == [a]
  {
    if a != [] {
      SplitOnAbsent(a[1..], c);
      assert a == [a[0]] + a[1..];
    }
  }

  /** The text before the first separator is the first piece; the rest is split on its own. */
  lemma {:induction false} SplitOnPrefix(a: string, b: string, c: char)
    requires c !in a
    ensures SplitOn(a + [c] + b, c) == [a] + SplitOn(b, c)
  {
    var s := a + [c] + b;
    if a == [] {
      assert s[1..] == b;
    } else {
      assert s[1..] == a[1..] + [c] + b;
      SplitOnPrefix(a[1..], b, c);
      assert [a[0]] + a[1..] == a;
    }
  }

  /** Splitting at a separator splits the two sides on their own. */
  lemma {:induction false} SplitOnConcat(a: string, b: string, c: char)
    ensures SplitOn(a + [c] + b, c) == SplitOn(a, c) + SplitOn(b, c)
  {
    var s := a + [c] + b;
    if a == [] {
      assert s[0] == c && s[1..] == b;
    } else {
      assert s[0] == a[0] && s[1..] == a[1..] + [c] + b;
      var restA := SplitOn(a[1..], c);
      var rest := SplitOn(s[1..], c);
      assert rest == restA + SplitOn(b, c) by {
        SplitOnConcat(a[1..], b, c);
      }
      if a[0] == c {
        calc {
          SplitOn(s, c);
          [""] + rest;
          ([""] + restA) + SplitOn(b, c);
          SplitOn(a, c) + SplitOn(b, c);
        }
      } else {
        calc {
          SplitOn(s, c);
          [[a[0]] + rest[0]] + rest[1..];
          { assert rest[0] == restA[0] && rest[1..] == restA[1..] + SplitOn(b, c); }
          ([[a[0]] + restA[0]] + restA[1..]) + SplitOn(b, c);
          SplitOn(a, c) + SplitOn(b, c);
        }
      }
    }
  }

  /** `c.join(parts)` */
  function JoinWith(parts: seq<string>, c: char): string
  {
    if |parts| == 0 then ""
    else if |parts| == 1 then parts[0]
    else parts[0] + [c] + JoinWith(parts[1..], c)
  }

  lemma JoinWithCons(p: string, tail: seq<string>, c: char)
    requires |tail| >= 1
    ensures JoinWith([p] + tail, c) == p + [c] + JoinWith(tail, c)
  {
    assert ([p] + tail)[1..] == tail;
  }

  lemma JoinWithPrepend(x: char, parts: seq<string>, c: char)
    requires |parts| >= 1
    ensures JoinWith([[x] + parts[0]] + parts[1..], c) == [x] + JoinWith(parts, c)
  {
    if |parts| > 1 {
      JoinWithCons([x] + parts[0], parts[1..], c);
      JoinWithCons(parts[0], parts[1..], c);
      assert [parts[0]] + parts[1..] == parts;
    }
  }

  /** Joining two non-empty lists of pieces puts one separator between their joins. */
  lemma {:induction false} JoinWithConcat(a: seq<string>, b: seq<string>, c: char)
    requires |a| >= 1 && |b| >= 1
    ensures JoinWith(a + b, c) == JoinWith(a, c) + [c] + JoinWith(b, c)
  {
    if |a| == 1 {
      JoinWithCons(a[0], b, c);
      assert a + b == [a[0]] + b;
    } else {
      JoinWithConcat(a[1..], b, c);
      JoinWithCons(a[0], a[1..] + b, c);
      JoinWithCons(a[0], a[1..], c);
      assert a + b == [a[0]] + (a[1..] + b);
      assert a == [a[0]] + a[1..];
    }
  }

  /** Joining the pieces of a split gives back the string that was split. */
  lemma {:induction false} JoinSplit(s: string, c: char)
    ensures JoinWith(SplitOn(s, c), c) == s
  {
    if s != [] {
      var rest := SplitOn(s[1..], c);
      JoinSplit(s[1..], c);
      if s[0] == c {
        JoinWithCons("", rest, c);
      } else {
        JoinWithPrepend(s[0], rest, c);
      }
      assert s == [s[0]] + s[1..];
    }
  }

  lemma {:induction false} FindAfterPrefix(a: string, b: string, c: char)
    requires c !in a
    ensures Find(a + [c] + b, c) == |a|
  {
    if a != [] {
      assert (a + [c] + b)[1..] == a[1..] + [c] + b;
      FindAfterPrefix(a[1..], b, c);
    }
  }

  lemma {:induction false} FirstOfAnyConcat(a: string, b: string, cs: set<char>)
    requires b != [] && b[0] in cs
    ensures FirstOfAny(a + b, cs) == FirstOfAny(a, cs)
  {
    if a != [] && a[0] !in cs {
      assert (a + b)[1..] == a[1..] + b;
      FirstOfAnyConcat(a[1..], b, cs);
    }
  }
}

=== FILE: urlparse.dfy ===
/**
 * A model of the parts of Python's `urllib.parse` (as in CPython 3.12) that the crawler calls:
 * `urlsplit`/`urlparse`, `urlunsplit`/`urlunparse` and `urljoin`.
 * Splitting follows section 3 of RFC 3986 (scheme before ':', authority after "//" up to
 * '/', '?' or '#'); joining follows the reference resolution of section 5.2 of RFC 3986 as the
 * library implements it (section 5.2.3 merge, dot segments removed with a stack).
 */
module UrlParse {
  import opened Wrappers
  import opened Strings

  /** `ValueError("Invalid IPv6 URL")`: a '[' without ']' (or the reverse) in the authority. */
  datatype UrlError = InvalidIPv6Url

  /** The five components of `SplitResult`; `;params` are still part of `path`. */
  datatype SplitResult = SplitResult(scheme: string, netloc: string, path: string, query: string, fragment: string)

  /** Schemes for which `urljoin` resolves relative references. */
  const UsesRelative: set<string> :=
    {"", "ftp", "http", "gopher", "nntp", "imap", "wais", "file", "https", "shttp", "mms",
     "prospero", "rtsp", "rtsps", "rtspu", "sftp", "svn", "svn+ssh", "ws", "wss"}

  /** Schemes that carry an authority ("//netloc"). */
  const UsesNetloc: set<string> :=
    {"", "ftp", "http", "gopher", "nntp", "telnet", "imap", "wais", "file", "mms", "https", "shttp",
     "snews", "prospero", "rtsp", "rtsps", "rtspu", "rsync", "svn", "svn+ssh", "sftp", "nfs", "git",
     "git+ssh", "ws", "wss", "itms-services"}

  /** The characters that end the authority. */
  const AuthorityEnd: set<char> := {'/', '?', '#'}

  predicate IsAsciiAlpha(c: char) { 'a' <= c <= 'z' || 'A' <= c <= 'Z' }

  predicate IsSchemeChar(c: char)
  {
    IsAsciiAlpha(c) || '0' <= c <= '9' || c == '+' || c == '-' || c == '.'
  }

  function LowerChar(c: char): char
  {
    if 'A' <= c <= 'Z' then (c as int + 32) as char else c
  }

  /** `str.lower()` on ASCII text. */
  function Lower(s: string): (r: string)
    ensures |r| == |s|
    ensures forall i :: 0 <= i < |s| ==> r[i] == LowerChar(s[i])
  {
    if s == [] then [] else [LowerChar(s[0])] + Lower(s[1..])
  }

  /** `lstrip` of the C0 control characters and space (codes 0 to 32). */
  function LStripControls(s: string): (r: string)
    ensures |r| <= |s| && r == s[|s| - |r|..]
    ensures r == [] || r[0] > ' '
  {
    if s != [] && s[0] <= ' ' then LStripControls(s[1..]) else s
  }

  /** What `urlsplit` does to its input before parsing: strip leading controls, delete tab, CR, LF. */
  function Sanitize(url: string): (r: string)
    ensures '\t' !in r && '\r' !in r && '\n' !in r
  {
    RemoveChar(RemoveChar(RemoveChar(LStripControls(url), '\t'), '\r'), '\n')
  }

  /** The scheme (lower-cased) and what follows its ':', or `default` and the whole text. */
  function SplitScheme(url: string, default: string): (r: (string, string))
  {
    var i := Find(url, ':');
    if i > 0 && IsAsciiAlpha(url[0]) && forall k :: 0 <= k < i ==> IsSchemeChar(url[k])
    then (Lower(url[..i]), url[i + 1..])
    else (default, url)
  }

  /** `_splitnetloc(url, 2)` applied to the text after "//": the authority and the rest. */
  function SplitNetloc(s: string): (r: (string, string))
    ensures r.0 + r.1 == s
    ensures forall c :: c in r.0 ==> c !in AuthorityEnd
    ensures r.1 == [] || r.1[0] in AuthorityEnd
  {
    var k := FirstOfAny(s, AuthorityEnd);
    assert s == s[..k] + s[k..];
    (s[..k], s[k..])
  }

  predicate UnbalancedBrackets(netloc: string)
  {
    ('[' in netloc) != (']' in netloc)
  }

  /** `urlsplit(url, scheme=default)`; `urlparse` is this followed by `SplitParams` on the path. */
  function UrlSplit(url: string, default: string): (r: Result<SplitResult, UrlError>)
    ensures r.Success? ==> forall c :: c in r.value.netloc ==> c !in AuthorityEnd
    ensures r.Success? ==> '#' !in r.value.path && '?' !in r.value.path && '#' !in r.value.query
  {
    var schemeAndRest := SplitScheme(Sanitize(url), default);
    SplitAfterScheme(schemeAndRest.0, schemeAndRest.1)
  }

  /** The authority (after "//"), the bracket check, then fragment, query and path. */
  function SplitAfterScheme(scheme: string, s: string): (r: Result<SplitResult, UrlError>)
    ensures r.Success? ==> forall c :: c in r.value.netloc ==> c !in AuthorityEnd
    ensures r.Success? ==> r.value.scheme == scheme
    ensures r.Success? ==> '#' !in r.value.path && '?' !in r.value.path && '#' !in r.value.query
  {
    var (netloc, rest) := if StartsWith(s, "//") then SplitNetloc(s[2..]) else ("", s);
    if UnbalancedBrackets(netloc) then Failure(InvalidIPv6Url)
    else
      var (beforeFragment, fragment) := SplitAtFirst(rest, '#');
      var (path, query) := SplitAtFirst(beforeFragment, '?');
      Success(SplitResult(scheme, netloc, path, query, fragment))
  }

  /**
   * `urlunsplit` in the form of CPython 3.9: reassemble the components; none is dropped, and a
   * scheme comes first.
   */
  function UrlUnsplit(p: SplitResult): (r: string)
    ensures |r| >= |p.scheme| + |p.netloc| + |p.path| + |p.query| + |p.fragment|
    ensures p.scheme != "" ==> StartsWith(r, p.scheme + ":")
  {
    var scheme := if p.scheme != "" then p.scheme + ":" else "";
    var authority :=
      if p.netloc != "" || (p.scheme != "" && p.scheme in UsesNetloc && !StartsWith(p.path, "//")) then
        "//" + p.netloc + (if p.path != "" && p.path[0] != '/' then "/" else "")
      else "";
    var query := if p.query != "" then "?" + p.query else "";
    var fragment := if p.fragment != "" then "#" + p.fragment else "";
    var tail := p.path + query + fragment;
    assert |scheme| >= |p.scheme| && |authority| >= |p.netloc| && |tail| >= |p.path| + |p.query| + |p.fragment|;
    ConcatAffixes(scheme, authority + tail);
    scheme + authority + tail
  }

  /**
   * Where each component of `urlunsplit` lands: the scheme and ':' come first, then "//" and the
   * netloc when there is one; the url ends with the path, then "?query" and "#fragment", the last
   * two only when they are not empty.
   */
  lemma UrlUnsplitLayout(p: SplitResult)
    ensures var r := UrlUnsplit(p);
      && (p.netloc != "" ==> StartsWith(r, (if p.scheme != "" then p.scheme + ":" else "") + "//" + p.netloc))
      && EndsWith(r, p.path + (if p.query != "" then "?" + p.query else "") + (if p.fragment != "" then "#" + p.fragment else ""))
  {
    var scheme := if p.scheme != "" then p.scheme + ":" else "";
    var authority :=
      if p.netloc != "" || (p.scheme != "" && p.scheme in UsesNetloc && !StartsWith(p.path, "//")) then
        "//" + p.netloc + (if p.path != "" && p.path[0] != '/' then "/" else "")
      else "";
    var tail := p.path + (if p.query != "" then "?" + p.query else "") + (if p.fragment != "" then "#" + p.fragment else "");
    assert UrlUnsplit(p) == scheme + authority + tail;
    ConcatAffixes(scheme + authority, tail);
    UnsplitAuthority(scheme, p.netloc, authority, tail);
  }

  /**
   * A url with no netloc but a scheme that takes one, in the form of `urlunsplit` modelled here: an
   * empty authority "//" follows the scheme, and a relative path gets a '/' in front.
   */
  lemma UnsplitEmptyAuthority(scheme: string, path: string)
    requires scheme != "" && scheme in UsesNetloc && path != "" && path[0] != '/'
    ensures UrlUnsplit(SplitResult(scheme, "", path, "", "")) == scheme + ":///" + path
  {
    assert !StartsWith(path, "//") by {
      if |path| >= 2 { assert path[..2][0] == path[0]; }
    }
    assert UrlUnsplit(SplitResult(scheme, "", path, "", "")) == (scheme + ":") + ("//" + "" + "/") + (path + "" + "");
  }

  /** With no scheme and no netloc, `urlunsplit` as modelled here leaves a path that starts with "//" as it is. */
  lemma UnsplitDoubleSlashPath(path: string)
    requires StartsWith(path, "//")
    ensures UrlUnsplit(SplitResult("", "", path, "", "")) == path
  {
    assert UrlUnsplit(SplitResult("", "", path, "", "")) == "" + "" + (path + "" + "");
  }

  // A step about concatenation, kept in a lemma of its own so that `UrlUnsplitLayout` stays cheap.
  lemma UnsplitAuthority(scheme: string, netloc: string, authority: string, rest: string)
    requires netloc != "" ==> StartsWith(authority, "//" + netloc)
    ensures netloc != "" ==> StartsWith(scheme + authority + rest, scheme + "//" + netloc)
  {
    if netloc != "" {
      var head := scheme + "//" + netloc;
      assert scheme + authority + rest == head + (authority[|head| - |scheme|..] + rest);
      ConcatAffixes(head, authority[|head| - |scheme|..] + rest);
    }
  }

  /** Schemes whose urls `urlparse` gives `;params`. */
  const UsesParams: set<string> :=
    {"", "ftp", "hdl", "prospero", "http", "imap", "https", "shttp", "rtsp", "rtsps", "rtspu",
     "sip", "sips", "mms", "sftp", "tel"}

  /** Where the last segment of a path starts: just after its last '/', or at 0. */
  function LastSegmentStart(path: string): (k: nat)
    ensures k <= |path|
    ensures '/' !in path[k..]
    ensures k > 0 ==> path[k - 1] == '/'
  {
    if path == [] then 0
    else if path[|path| - 1] == '/' then |path|
    else
      var k := LastSegmentStart(path[..|path| - 1]);
      assert path[k..] == path[..|path| - 1][k..] + [path[|path| - 1]];
      k
  }

  /**
   * `_splitparams` as `urlparse` applies it: for a scheme that uses params, the path is cut at the
   * first ';' of its last segment, and what follows is the params. Otherwise nothing is cut.
   */
  function SplitParams(scheme: string, path: string): (r: (string, string))
    ensures r == (path, "") || path == r.0 + [';'] + r.1
    ensures ';' !in path ==> r == (path, "")
    ensures '/' !in r.1
    ensures scheme !in UsesParams ==> r == (path, "")
  {
    if scheme !in UsesParams then (path, "")
    else
      var k := LastSegmentStart(path);
      var j := Find(path[k..], ';');
      if j < 0 then (path, "")
      else
        assert path[k + j] == ';';
        assert path == path[..k + j] + [';'] + path[k + j + 1..];
        assert path[k + j + 1..] == path[k..][j + 1..];
        (path[..k + j], path[k + j + 1..])
  }

  /**
   * For a scheme that uses params, the cut is made exactly when the last segment holds a ';', and
   * then at the first ';' of that segment.
   */
  lemma SplitParamsLastSegment(scheme: string, path: string)
    requires scheme in UsesParams
    ensures var r, k := SplitParams(scheme, path), LastSegmentStart(path);
      && (';' !in path[k..] ==> r == (path, ""))
      && (';' in path[k..] ==> path == r.0 + [';'] + r.1 && k <= |r.0| && ';' !in r.0[k..])
  {
    var k := LastSegmentStart(path);
    var j := Find(path[k..], ';');
    if j >= 0 {
      assert path[..k + j][k..] == path[k..][..j];
    }
  }

  /** `urlunparse`: the params go back after a ';' only when there are any. */
  function UrlUnparse(p: SplitResult, params: string): (r: string)
    ensures |r| >= |p.scheme| + |p.netloc| + |p.path| + |params| + |p.query| + |p.fragment|
    ensures params == "" ==> r == UrlUnsplit(p)
    ensures params != "" ==> r == UrlUnsplit(p.(path := p.path + ";" + params))
  {
    UrlUnsplit(p.(path := if params == "" then p.path else p.path + ";" + params))
  }

  /** Keep the first and last segment, drop the empty ones in between (`segments[1:-1] = filter(None, ...)`). */
  function DropEmptyInner(segments: seq<string>): (r: seq<string>)
    requires |segments| >= 1
    ensures |r| >= 1 && r[0] == segments[0] && r[|r| - 1] == segments[|segments| - 1]
  {
    if |segments| < 2 then segments
    else [segments[0]] + RemoveEmpty(segments[1..|segments| - 1]) + [segments[|segments| - 1]]
  }

  function RemoveEmpty(segments: seq<string>): (r: seq<string>)
    ensures forall i :: 0 <= i < |r| ==> r[i] != ""
  {
    if segments == [] then []
    else (if segments[0] == "" then [] else [segments[0]]) + RemoveEmpty(segments[1..])
  }

  /** The stack walk of `urljoin`: ".." pops (never below empty), "." is skipped, others are pushed. */
  function RemoveDots(segments: seq<string>, stack: seq<string>): (r: seq<string>)
  {
    if segments == [] then stack
    else if segments[0] == ".." then RemoveDots(segments[1..], if stack == [] then [] else stack[..|stack| - 1])
    else if segments[0] == "." then RemoveDots(segments[1..], stack)
    else RemoveDots(segments[1..], stack + [segments[0]])
  }

  predicate IsDotSegment(seg: string) { seg == "." || seg == ".." }

  /** The path `urljoin` builds from the base path and the reference path: never empty (`or '/'`). */
  function MergePath(basePath: string, refPath: string): (r: string)
    ensures r != ""
  {
    var joined := JoinWith(ResolveDots(MergeSegments(basePath, refPath)), '/');
    if joined == "" then "/" else joined
  }

  /** The segments to resolve: the reference alone if it starts with '/', else the base directory and the reference. */
  function MergeSegments(basePath: string, refPath: string): (segments: seq<string>)
    ensures |segments| >= 1
  {
    if StartsWith(refPath, "/") then SplitOn(refPath, '/')
    else DropEmptyInner(Directory(SplitOn(basePath, '/')) + SplitOn(refPath, '/'))
  }

  /** The segments of the base's directory: a non-empty last segment is dropped (`base_parts[:-1]`). */
  function Directory(baseParts: seq<string>): seq<string>
    requires |baseParts| >= 1
  {
    if baseParts[|baseParts| - 1] != "" then baseParts[..|baseParts| - 1] else baseParts
  }

  /** Dot segments removed; a trailing "." or ".." leaves a trailing '/'. */
  function ResolveDots(segments: seq<string>): seq<string>
    requires |segments| >= 1
  {
    var resolved := RemoveDots(segments, []);
    if IsDotSegment(segments[|segments| - 1]) then resolved + [""] else resolved
  }

  /** `urljoin(base, url)`: both are parsed with `urlparse`, so the merge sees paths without their `;params`. */
  function UrlJoin(base: string, url: string): (r: Result<string, UrlError>)
    ensures base == "" ==> r == Success(url)
    ensures base != "" && url == "" ==> r == Success(base)
  {
    if base == "" then Success(url)
    else if url == "" then Success(base)
    else
      var b :- UrlSplit(base, "");
      var u :- UrlSplit(url, b.scheme);
      Success(JoinParsed(url, b, u))
  }

  /** The rest of `urljoin`, once the base has parsed as `b` and the url as `u`. */
  function JoinParsed(url: string, b: SplitResult, u: SplitResult): string
  {
    if u.scheme != b.scheme || u.scheme !in UsesRelative then url
    else
      var (basePath, baseParams) := SplitParams(b.scheme, b.path);
      var (path, params) := SplitParams(u.scheme, u.path);
      if u.scheme in UsesNetloc && u.netloc != "" then UrlUnparse(u.(path := path), params)
      else
        var netloc := if u.scheme in UsesNetloc then b.netloc else u.netloc;
        if path == "" && params == "" then
          var query := if u.query == "" then b.query else u.query;
          UrlUnparse(SplitResult(u.scheme, netloc, basePath, query, u.fragment), baseParams)
        else
          UrlUnparse(SplitResult(u.scheme, netloc, MergePath(basePath, path), u.query, u.fragment), params)
  }

  // ---------------------------------------------------------------------------------------------
  // Properties of the model

  /** Text that starts with a printable character and holds no tab, CR or LF is parsed as it is. */
  lemma SanitizeClean(s: string)
    requires s == [] || s[0] > ' '
    requires '\t' !in s && '\r' !in s && '\n' !in s
    ensures Sanitize(s) == s
  {
    RemoveCharAbsent(s, '\t');
    RemoveCharAbsent(s, '\r');
    RemoveCharAbsent(s, '\n');
  }

  lemma {:induction false} LowerIdentity(s: string)
    requires forall i :: 0 <= i < |s| ==> !('A' <= s[i] <= 'Z')
    ensures Lower(s) == s
  {
    if s != [] {
      LowerIdentity(s[1..]);
      assert s == [s[0]] + s[1..];
    }
  }

  /** A well-formed scheme name: a letter followed by letters, digits, '+', '-' or '.'. */
  predicate IsSchemeName(scheme: string)
  {
    scheme != [] && IsAsciiAlpha(scheme[0]) && forall i :: 0 <= i < |scheme| ==> IsSchemeChar(scheme[i])
  }

  /** A host that `_splitnetloc` keeps whole and that passes the bracket check. */
  predicate IsPlainHost(host: string)
  {
    forall i :: 0 <= i < |host| ==> host[i] !in AuthorityEnd && host[i] != '[' && host[i] != ']'
  }

  /** A path with nothing `urlsplit` cuts off or removes: no query, fragment, tab, CR or LF. */
  predicate IsPlainPath(path: string)
  {
    forall i :: 0 <= i < |path| ==> path[i] !in {'?', '#', '\t', '\r', '\n'}
  }

  /**
   * Section 3 of RFC 3986: `scheme "://" host path` splits into the scheme (lower-cased), the host
   * as authority and the path, whatever the default scheme; and reassembling gives the text back.
   */
  lemma SplitAbsoluteUrl(scheme: string, host: string, path: string, default: string)
    requires IsSchemeName(scheme) && host != "" && IsPlainHost(host) && IsPlainPath(path)
    requires '\t' !in host && '\r' !in host && '\n' !in host
    requires path == [] || path[0] == '/'
    ensures UrlSplit(scheme + "://" + host + path, default) == Success(SplitResult(Lower(scheme), host, path, "", ""))
    ensures UrlUnsplit(SplitResult(Lower(scheme), host, path, "", "")) == Lower(scheme) + "://" + host + path
  {
    AbsoluteUrlScheme(scheme, host, path, default);
    SplitAuthority(Lower(scheme), host, path);
    UnsplitAbsolute(Lower(scheme), host, path);
  }

  /** `scheme ":" path` with no "//" after the ':' splits into the scheme (lower-cased), no authority and the path. */
  lemma SplitSchemeOnlyUrl(scheme: string, path: string, default: string)
    requires IsSchemeName(scheme) && IsPlainPath(path) && !StartsWith(path, "//")
    ensures UrlSplit(scheme + ":" + path, default) == Success(SplitResult(Lower(scheme), "", path, "", ""))
  {
    var url := scheme + [':'] + path;
    assert scheme + ":" + path == url;
    SchemeOnlyUrlClean(scheme, path);
    SchemePrefix(scheme, path, default);
    SplitWithoutAuthority(Lower(scheme), path);
  }

  lemma SchemeOnlyUrlClean(scheme: string, path: string)
    requires IsSchemeName(scheme) && IsPlainPath(path)
    ensures Sanitize(scheme + [':'] + path) == scheme + [':'] + path
  {
    var url := scheme + [':'] + path;
    assert url[0] == scheme[0];
    assert forall i :: 0 <= i < |scheme| ==> scheme[i] != '\t' && scheme[i] != '\r' && scheme[i] != '\n';
    assert '\t' !in path && '\r' !in path && '\n' !in path;
    SanitizeClean(url);
  }

  lemma SplitWithoutAuthority(scheme: string, path: string)
    requires IsPlainPath(path) && !StartsWith(path, "//")
    ensures SplitAfterScheme(scheme, path) == Success(SplitResult(scheme, "", path, "", ""))
  {
    assert '#' !in path && '?' !in path;
  }

  lemma SplitAuthority(scheme: string, host: string, path: string)
    requires IsPlainHost(host) && IsPlainPath(path)
    requires path == [] || path[0] == '/'
    ensures SplitAfterScheme(scheme, "//" + host + path) == Success(SplitResult(scheme, host, path, "", ""))
  {
    var after := "//" + host + path;
    assert StartsWith(after, "//") && after[2..] == host + path;
    PlainHostNetloc(host, path);
    assert '[' !in host && ']' !in host;
    assert '#' !in path && '?' !in path;
  }

  lemma AbsoluteUrlClean(scheme: string, host: string, path: string)
    requires IsSchemeName(scheme) && IsPlainPath(path)
    requires '\t' !in host && '\r' !in host && '\n' !in host
    ensures Sanitize(scheme + "://" + host + path) == scheme + "://" + host + path
  {
    var url := scheme + "://" + host + path;
    assert url[0] == scheme[0];
    assert forall i :: 0 <= i < |scheme| ==> scheme[i] != '\t' && scheme[i] != '\r' && scheme[i] != '\n';
    assert '\t' !in path && '\r' !in path && '\n' !in path;
    assert '\t' !in url && '\r' !in url && '\n' !in url by {
      assert url == scheme + "://" + (host + path);
    }
    SanitizeClean(url);
  }

  lemma AbsoluteUrlScheme(scheme: string, host: string, path: string, default: string)
    requires IsSchemeName(scheme) && IsPlainPath(path)
    requires '\t' !in host && '\r' !in host && '\n' !in host
    ensures SplitScheme(Sanitize(scheme + "://" + host + path), default) == (Lower(scheme), "//" + host + path)
  {
    var after := "//" + host + path;
    AbsoluteUrlClean(scheme, host, path);
    assert scheme + "://" + host + path == scheme + [':'] + after;
    SchemePrefix(scheme, after, default);
  }

  lemma SchemePrefix(scheme: string, after: string, default: string)
    requires IsSchemeName(scheme)
    ensures SplitScheme(scheme + [':'] + after, default) == (Lower(scheme), after)
  {
    var url := scheme + [':'] + after;
    assert forall i :: 0 <= i < |scheme| ==> scheme[i] != ':';
    FindAfterPrefix(scheme, after, ':');
    assert url[..|scheme|] == scheme;
    assert url[|scheme| + 1..] == after;
    assert url[0] == scheme[0];
  }

  lemma PlainHostNetloc(host: string, path: string)
    requires IsPlainHost(host)
    requires path == [] || path[0] == '/'
    ensures SplitNetloc(host + path) == (host, path)
  {
    if path == [] {
      assert host + path == host;
    } else {
      FirstOfAnyConcat(host, path, AuthorityEnd);
    }
    assert FirstOfAny(host, AuthorityEnd) == |host|;
    assert (host + path)[..|host|] == host && (host + path)[|host|..] == path;
  }

  lemma UnsplitAbsolute(scheme: string, host: string, path: string)
    requires scheme != "" && host != "" && (path == [] || path[0] == '/')
    ensures UrlUnsplit(SplitResult(scheme, host, path, "", "")) == scheme + "://" + host + path
  {
    assert UrlUnsplit(SplitResult(scheme, host, path, "", "")) == (scheme + ":") + ("//" + host + "") + (path + "" + "");
    assert (scheme + ":") + ("//" + host + "") + (path + "" + "") == scheme + "://" + host + path;
  }

  /**
   * A reference with no scheme and no authority (it has no ':' and does not start with "//")
   * splits into the default scheme and the whole text as its path.
   */
  lemma SplitRelativeRef(ref: string, default: string)
    requires ref != [] && ref[0] > ' ' && IsPlainPath(ref)
    requires (':' !in ref || !IsAsciiAlpha(ref[0])) && !StartsWith(ref, "//")
    ensures UrlSplit(ref, default) == Success(SplitResult(default, "", ref, "", ""))
  {
    SanitizeClean(ref);
    assert '#' !in ref && '?' !in ref;
  }

  /** Whether a split succeeds, and every component but the scheme, do not depend on the default scheme. */
  lemma UrlSplitDefault(url: string, default1: string, default2: string)
    ensures UrlSplit(url, default1).Success? == UrlSplit(url, default2).Success?
    ensures UrlSplit(url, default1).Success? ==>
      var p1, p2 := UrlSplit(url, default1).value, UrlSplit(url, default2).value;
      p1.netloc == p2.netloc && p1.path == p2.path && p1.query == p2.query && p1.fragment == p2.fragment
  {
  }

  lemma {:induction false} RemoveDotsPlain(segments: seq<string>, stack: seq<string>)
    requires forall i :: 0 <= i < |segments| ==> !IsDotSegment(segments[i])
    ensures RemoveDots(segments, stack) == stack + segments
  {
    if segments != [] {
      RemoveDotsPlain(segments[1..], stack + [segments[0]]);
      assert stack + [segments[0]] + segments[1..] == stack + segments;
    }
  }

  /** A path free of "." and ".." segments. */
  predicate NoDotSegments(path: string)
  {
    var segments := SplitOn(path, '/');
    forall i :: 0 <= i < |segments| ==> !IsDotSegment(segments[i])
  }

  /** Section 5.2.2 of RFC 3986: an absolute-path reference replaces the base path. */
  lemma MergeAbsolutePath(basePath: string, refPath: string)
    requires StartsWith(refPath, "/") && NoDotSegments(refPath)
    ensures MergePath(basePath, refPath) == refPath
  {
    var segments := SplitOn(refPath, '/');
    assert MergeSegments(basePath, refPath) == segments;
    ResolvePlain(segments);
    JoinSplit(refPath, '/');
  }

  /**
   * Section 5.2.3 of RFC 3986: a relative-path reference against an empty base path (a base
   * that has an authority) becomes "/" followed by the reference.
   */
  lemma MergeIntoRoot(refPath: string)
    requires refPath != [] && refPath[0] != '/' && NoDotSegments(refPath)
    requires NoEmptyInnerSegments(refPath)
    ensures MergePath("", refPath) == "/" + refPath
  {
    var all := [""] + SplitOn(refPath, '/');
    RootSegments(refPath);
    RootedNoDots(refPath);
    ResolvePlain(all);
    assert JoinWith(all, '/') == "/" + refPath by {
      JoinWithCons("", SplitOn(refPath, '/'), '/');
      JoinSplit(refPath, '/');
    }
  }

  lemma RootSegments(refPath: string)
    requires refPath != [] && refPath[0] != '/'
    requires NoEmptyInnerSegments(refPath)
    ensures MergeSegments("", refPath) == [""] + SplitOn(refPath, '/')
  {
    var refSegments := SplitOn(refPath, '/');
    assert SplitOn("", '/') == [""];
    assert !StartsWith(refPath, "/");
    DropEmptyGap([""], [], refSegments);
    assert [""] + [] + refSegments == [""] + refSegments;
  }

  lemma RootedNoDots(refPath: string)
    requires NoDotSegments(refPath)
    ensures forall i :: 0 <= i < |[""] + SplitOn(refPath, '/')| ==> !IsDotSegment(([""] + SplitOn(refPath, '/'))[i])
  {
    var refSegments := SplitOn(refPath, '/');
    var all := [""] + refSegments;
    forall i | 0 <= i < |all| ensures !IsDotSegment(all[i]) {
      if i > 0 { assert all[i] == refSegments[i - 1]; }
    }
  }

  /**
   * Section 5.2.3 of RFC 3986: a relative-path reference replaces the last segment of the base
   * path, so that `MergePath("/a/b", "c")` is "/a/c". The directory must hold no empty segment
   * (beyond the leading one of an absolute path) and no dot segments, and neither may the
   * reference.
   */
  lemma MergeIntoDirectory(dir: string, last: string, refPath: string)
    requires '/' !in last
    requires NoDotSegments(dir) && NoEmptyLaterSegments(dir)
    requires refPath != [] && refPath[0] != '/' && NoDotSegments(refPath)
    requires NoEmptyInnerSegments(refPath)
    ensures MergePath(dir + "/" + last, refPath) == dir + "/" + refPath
  {
    DirectorySegments(dir, last, refPath);
    ConcatNoDots(dir, refPath);
    ResolvePlain(SplitOn(dir, '/') + SplitOn(refPath, '/'));
    JoinConcatSplit(dir, refPath);
  }

  lemma ConcatNoDots(dir: string, refPath: string)
    requires NoDotSegments(dir) && NoDotSegments(refPath)
    ensures var segments := SplitOn(dir, '/') + SplitOn(refPath, '/');
      forall i :: 0 <= i < |segments| ==> !IsDotSegment(segments[i])
  {
    var dirSegments, refSegments := SplitOn(dir, '/'), SplitOn(refPath, '/');
    forall i | 0 <= i < |dirSegments + refSegments| ensures !IsDotSegment((dirSegments + refSegments)[i]) {
      if i >= |dirSegments| { assert (dirSegments + refSegments)[i] == refSegments[i - |dirSegments|]; }
    }
  }

  lemma JoinConcatSplit(dir: string, refPath: string)
    ensures JoinWith(SplitOn(dir, '/') + SplitOn(refPath, '/'), '/') == dir + "/" + refPath
  {
    JoinWithConcat(SplitOn(dir, '/'), SplitOn(refPath, '/'), '/');
    JoinSplit(dir, '/');
    JoinSplit(refPath, '/');
  }

  /** Every segment but the first is non-empty: no "//" and no trailing '/'. */
  predicate NoEmptyLaterSegments(path: string)
  {
    var segments := SplitOn(path, '/');
    forall i :: 0 < i < |segments| ==> segments[i] != ""
  }

  lemma DirectorySegments(dir: string, last: string, refPath: string)
    requires '/' !in last
    requires NoEmptyLaterSegments(dir)
    requires refPath != [] && refPath[0] != '/'
    requires NoEmptyInnerSegments(refPath)
    ensures MergeSegments(dir + "/" + last, refPath) == SplitOn(dir, '/') + SplitOn(refPath, '/')
  {
    var gap: seq<string> := if last != "" then [] else [""];
    BaseDirectory(dir, last, refPath);
    DropEmptyGap(SplitOn(dir, '/'), gap, SplitOn(refPath, '/'));
  }

  /** The base directory is the base's segments without `last`, which stays only as an empty segment. */
  lemma BaseDirectory(dir: string, last: string, refPath: string)
    requires '/' !in last
    requires refPath != [] && refPath[0] != '/'
    ensures MergeSegments(dir + "/" + last, refPath)
      == DropEmptyInner(SplitOn(dir, '/') + (if last != "" then [] else [""]) + SplitOn(refPath, '/'))
  {
    BaseParts(dir, last);
    DirectoryOfBase(SplitOn(dir, '/'), last);
    assert !StartsWith(refPath, "/");
  }

  lemma BaseParts(dir: string, last: string)
    requires '/' !in last
    ensures SplitOn(dir + "/" + last, '/') == SplitOn(dir, '/') + [last]
  {
    SplitOnConcat(dir, last, '/');
    SplitOnAbsent(last, '/');
  }

  lemma DirectoryOfBase(dirSegments: seq<string>, last: string)
    ensures Directory(dirSegments + [last]) == dirSegments + (if last != "" then [] else [""])
  {
    assert (dirSegments + [last])[..|dirSegments|] == dirSegments;
  }

  /** Between a directory and a reference without inner empty segments, a gap of empty segments is dropped. */
  lemma DropEmptyGap(dirSegments: seq<string>, gap: seq<string>, refSegments: seq<string>)
    requires |dirSegments| >= 1 && |refSegments| >= 1
    requires forall i :: 0 < i < |dirSegments| ==> dirSegments[i] != ""
    requires forall i :: 0 <= i < |refSegments| - 1 ==> refSegments[i] != ""
    requires forall i :: 0 <= i < |gap| ==> gap[i] == ""
    ensures DropEmptyInner(dirSegments + gap + refSegments) == dirSegments + refSegments
  {
    var all := dirSegments + gap + refSegments;
    var dirInner, refInner := dirSegments[1..], refSegments[..|refSegments| - 1];
    GapEnds(dirSegments, gap, refSegments);
    NonEmptyTails(dirSegments);
    NonEmptyFronts(refSegments);
    RemoveEmptyGap(dirInner, gap, refInner);
    Reassemble(dirSegments, refSegments);
  }

  /** The first, inner and last segments of `dirSegments + gap + refSegments`. */
  lemma GapEnds(dirSegments: seq<string>, gap: seq<string>, refSegments: seq<string>)
    requires |dirSegments| >= 1 && |refSegments| >= 1
    ensures var all := dirSegments + gap + refSegments;
      && all[0] == dirSegments[0] && all[|all| - 1] == refSegments[|refSegments| - 1]
      && all[1..|all| - 1] == dirSegments[1..] + gap + refSegments[..|refSegments| - 1]
  {
  }

  lemma Reassemble(dirSegments: seq<string>, refSegments: seq<string>)
    requires |dirSegments| >= 1 && |refSegments| >= 1
    ensures [dirSegments[0]] + (dirSegments[1..] + refSegments[..|refSegments| - 1]) + [refSegments[|refSegments| - 1]]
      == dirSegments + refSegments
  {
    assert [dirSegments[0]] + dirSegments[1..] == dirSegments;
    assert refSegments[..|refSegments| - 1] + [refSegments[|refSegments| - 1]] == refSegments;
  }

  lemma NonEmptyFronts(segments: seq<string>)
    requires |segments| >= 1
    requires forall i :: 0 <= i < |segments| - 1 ==> segments[i] != ""
    ensures var front := segments[..|segments| - 1]; forall i :: 0 <= i < |front| ==> front[i] != ""
  {
  }

  lemma RemoveEmptyGap(dirInner: seq<string>, gap: seq<string>, refInner: seq<string>)
    requires forall i :: 0 <= i < |dirInner| ==> dirInner[i] != ""
    requires forall i :: 0 <= i < |gap| ==> gap[i] == ""
    requires forall i :: 0 <= i < |refInner| ==> refInner[i] != ""
    ensures RemoveEmpty(dirInner + gap + refInner) == dirInner + refInner
  {
    calc {
      RemoveEmpty(dirInner + gap + refInner);
    == { RemoveEmptyConcat(dirInner + gap, refInner); }
      RemoveEmpty(dirInner + gap) + RemoveEmpty(refInner);
    == { RemoveEmptyConcat(dirInner, gap); }
      RemoveEmpty(dirInner) + RemoveEmpty(gap) + RemoveEmpty(refInner);
    == { RemoveEmptyEmpty(gap); }
      RemoveEmpty(dirInner) + [] + RemoveEmpty(refInner);
    == { RemoveEmptyNonEmpty(dirInner); RemoveEmptyNonEmpty(refInner); }
      dirInner + [] + refInner;
    == { assert dirInner + [] == dirInner; }
      dirInner + refInner;
    }
  }

  lemma NonEmptyTails(segments: seq<string>)
    requires |segments| >= 1
    requires forall i :: 0 < i < |segments| ==> segments[i] != ""
    ensures forall i :: 0 <= i < |segments[1..]| ==> segments[1..][i] != ""
  {
    forall i | 0 <= i < |segments[1..]| ensures segments[1..][i] != "" { assert segments[1..][i] == segments[i + 1]; }
  }

  lemma {:induction false} RemoveEmptyEmpty(segments: seq<string>)
    requires forall i :: 0 <= i < |segments| ==> segments[i] == ""
    ensures RemoveEmpty(segments) == []
  {
    if segments != [] {
      RemoveEmptyEmpty(segments[1..]);
    }
  }

  lemma {:induction false} RemoveEmptyConcat(a: seq<string>, b: seq<string>)
    ensures RemoveEmpty(a + b) == RemoveEmpty(a) + RemoveEmpty(b)
  {
    if a == [] {
      assert a + b == b;
    } else {
      var head := if a[0] == "" then [] else [a[0]];
      calc {
        RemoveEmpty(a + b);
      == { assert (a + b)[0] == a[0] && (a + b)[1..] == a[1..] + b; }
        head + RemoveEmpty(a[1..] + b);
      == { RemoveEmptyConcat(a[1..], b); }
        head + (RemoveEmpty(a[1..]) + RemoveEmpty(b));
      ==
        (head + RemoveEmpty(a[1..])) + RemoveEmpty(b);
      }
    }
  }

  lemma ResolvePlain(segments: seq<string>)
    requires |segments| >= 1
    requires forall i :: 0 <= i < |segments| ==> !IsDotSegment(segments[i])
    ensures ResolveDots(segments) == segments
  {
    RemoveDotsPlain(segments, []);
    assert [] + segments == segments;
  }

  /** No "//" inside a relative path: every segment but the last is non-empty. */
  predicate NoEmptyInnerSegments(path: string)
  {
    var segments := SplitOn(path, '/');
    forall i :: 0 <= i < |segments| - 1 ==> segments[i] != ""
  }

  lemma {:induction false} RemoveEmptyNonEmpty(segments: seq<string>)
    requires forall i :: 0 <= i < |segments| ==> segments[i] != ""
    ensures RemoveEmpty(segments) == segments
  {
    if segments != [] {
      RemoveEmptyNonEmpty(segments[1..]);
      assert [segments[0]] + segments[1..] == segments;
    }
  }

  /** A reference whose scheme differs from the base's, or is not resolved relatively, is returned as it is. */
  lemma JoinOtherScheme(base: string, url: string)
    requires base != "" && url != ""
    requires UrlSplit(base, "").Success?
    requires var b := UrlSplit(base, "").value;
      UrlSplit(url, b.scheme).Success?
      && (UrlSplit(url, b.scheme).value.scheme != b.scheme || b.scheme !in UsesRelative)
    ensures UrlJoin(base, url) == Success(url)
  {
  }

  /**
   * Section 5.2.2 of RFC 3986: a reference with an authority (and the base's scheme) replaces the
   * base entirely; the result is the reference reassembled by `urlunparse`.
   */
  lemma JoinWithAuthority(base: string, url: string)
    requires base != "" && url != ""
    requires UrlSplit(base, "").Success?
    requires var b := UrlSplit(base, "").value;
      UrlSplit(url, b.scheme).Success? && UrlSplit(url, b.scheme).value.netloc != ""
      && UrlSplit(url, b.scheme).value.scheme == b.scheme && b.scheme in UsesRelative && b.scheme in UsesNetloc
    ensures var u := UrlSplit(url, UrlSplit(base, "").value.scheme).value;
      var (path, params) := SplitParams(u.scheme, u.path);
      UrlJoin(base, url) == Success(UrlUnparse(u.(path := path), params))
  {
  }

  /**
   * Section 5.2.2 of RFC 3986: a reference without authority but with a path or params keeps the
   * base's scheme and authority and takes the merged path, its own params, query and fragment.
   */
  lemma JoinInheritsAuthority(base: string, url: string)
    requires base != "" && url != ""
    requires UrlSplit(base, "").Success?
    requires var b := UrlSplit(base, "").value;
      UrlSplit(url, b.scheme).Success? && UrlSplit(url, b.scheme).value.netloc == ""
      && SplitParams(b.scheme, UrlSplit(url, b.scheme).value.path) != ("", "")
      && UrlSplit(url, b.scheme).value.scheme == b.scheme && b.scheme in UsesRelative && b.scheme in UsesNetloc
    ensures var b := UrlSplit(base, "").value;
      var u := UrlSplit(url, b.scheme).value;
      var (path, params) := SplitParams(b.scheme, u.path);
      UrlJoin(base, url) ==
        Success(UrlUnparse(SplitResult(b.scheme, b.netloc, MergePath(SplitParams(b.scheme, b.path).0, path), u.query, u.fragment), params))
  {
  }

  /**
   * Section 5.2.2 of RFC 3986: a reference with neither authority, path nor params keeps the base's
   * path and params, and its query unless it has its own.
   */
  lemma JoinKeepsBasePath(base: string, url: string)
    requires base != "" && url != ""
    requires UrlSplit(base, "").Success?
    requires var b := UrlSplit(base, "").value;
      UrlSplit(url, b.scheme).Success? && UrlSplit(url, b.scheme).value.netloc == ""
      && SplitParams(b.scheme, UrlSplit(url, b.scheme).value.path) == ("", "")
      && UrlSplit(url, b.scheme).value.scheme == b.scheme && b.scheme in UsesRelative && b.scheme in UsesNetloc
    ensures var b := UrlSplit(base, "").value;
      var u := UrlSplit(url, b.scheme).value;
      var (basePath, baseParams) := SplitParams(b.scheme, b.path);
      UrlJoin(base, url) ==
        Success(UrlUnparse(SplitResult(b.scheme, b.netloc, basePath, if u.query == "" then b.query else u.query, u.fragment), baseParams))
  {
  }

  /** A path that ends in a ';' of its last segment has empty params: the ';' is cut off and lost. */
  lemma TrailingParams(scheme: string, path: string)
    requires scheme in UsesParams && ';' !in path
    ensures SplitParams(scheme, path + [';']) == (path, "")
  {
    var t := path + [';'];
    var k := LastSegmentStart(t);
    assert t[|t| - 1] == ';';
    assert k <= |path|;
    var j := Find(t[k..], ';');
    assert t[k..][|path| - k] == ';';
    assert ';' !in t[k..][..|path| - k] by {
      assert t[k..][..|path| - k] == path[k..];
    }
    assert t[..k + j] == path;
  }

  /** A join fails exactly when one of the two parses fails. */
  lemma JoinFailure(base: string, url: string)
    requires base != "" && url != ""
    ensures UrlJoin(base, url).Failure? <==> UrlSplit(base, "").Failure? || UrlSplit(url, "").Failure?
  {
    if UrlSplit(base, "").Success? {
      UrlSplitDefault(url, "", UrlSplit(base, "").value.scheme);
    }
  }
}

=== FILE: utils.dfy ===
/** `app/utils.py`: URL normalisation and expansion. */
module Utils {
  import opened Wrappers
  import opened Strings
  import opened UrlParse

  // ---------------------------------------------------------------------------------------------
  // normalize_url

  /** `normalize_url`: delete every newline, then every tab. */
  function NormalizeUrl(url: string): (r: string)
    ensures '\n' !in r && '\t' !in r
    ensures |r| <= |url|
  {
    RemoveChar(RemoveChar(url, '\n'), '\t')
  }

  /** Reference definition: a single pass that keeps every character but newline and tab. */
  function DropNewlinesAndTabs(s: string): string
  {
    if s == [] then []
    else (if s[0] == '\n' || s[0] == '\t' then [] else [s[0]]) + DropNewlinesAndTabs(s[1..])
  }

  /** The two chained `replace` calls delete exactly the newlines and tabs, in one pass. */
  lemma {:induction false} NormalizeUrlIsFilter(url: string)
    ensures NormalizeUrl(url) == DropNewlinesAndTabs(url)
  {
    if url != [] {
      NormalizeUrlIsFilter(url[1..]);
      assert url == [url[0]] + url[1..];
      RemoveCharConcat([url[0]], url[1..], '\n');
      RemoveCharConcat(RemoveChar([url[0]], '\n'), RemoveChar(url[1..], '\n'), '\t');
    }
  }

  /** Normalising twice is normalising once. */
  lemma NormalizeUrlIdempotent(url: string)
    ensures NormalizeUrl(NormalizeUrl(url)) == NormalizeUrl(url)
  {
    var once := NormalizeUrl(url);
    RemoveCharAbsent(once, '\n');
    RemoveCharAbsent(once, '\t');
  }

  /** Every other character survives, in order and as often as it occurred. */
  lemma NormalizeUrlKeepsOthers(url: string)
    ensures IsSubsequence(NormalizeUrl(url), url)
    ensures forall x :: x != '\n' && x != '\t' ==> multiset(NormalizeUrl(url))[x] == multiset(url)[x]
  {
    var noNewlines := RemoveChar(url, '\n');
    RemoveCharSubsequence(url, '\n');
    RemoveCharSubsequence(noNewlines, '\t');
    SubsequenceTransitive(NormalizeUrl(url), noNewlines, url);
    RemoveCharCounts(url, '\n');
    RemoveCharCounts(noNewlines, '\t');
  }

  // ---------------------------------------------------------------------------------------------
  // expand_url

  /** The test `s.startswith('http') or s.startswith('https')` used for both the base and the result. */
  predicate HasHttpPrefix(s: string)
  {
    StartsWith(s, "http") || StartsWith(s, "https")
  }

  /** The `'https'` alternative adds nothing: the test is the bare "http" prefix. */
  lemma HttpPrefixOnly(s: string)
    ensures HasHttpPrefix(s) <==> StartsWith(s, "http")
  {
    if StartsWith(s, "https") {
      assert s[..4] == s[..5][..4];
    }
  }

  /**
   * `expand_url(base_url, url)`: a bare base gets "http://", a url without authority is joined to
   * the base (when there is one), and a result without the "http" prefix gets "http://".
   * A `ValueError` from `urlparse` or `urljoin` is the `Failure` case.
   */
  function ExpandUrl(baseUrl: Option<string>, url: string): (r: Result<string, UrlError>)
    ensures r.Success? ==> StartsWith(r.value, "http")
  {
    ExpandAgainst(if baseUrl.Some? then Some(CompletedBase(baseUrl.value)) else None, url)
  }

  /** The body of `expand_url` once the base has been completed. */
  function ExpandAgainst(base: Option<string>, url: string): (r: Result<string, UrlError>)
    ensures r.Success? ==> StartsWith(r.value, "http")
  {
    var parsed :- UrlSplit(url, "http");
    var joined :- if parsed.netloc == "" && base.Some? then UrlJoin(base.value, url) else Success(url);
    HttpPrefixOnly(joined);
    Success(if HasHttpPrefix(joined) then joined else HttpSchemePrefix(joined); "http://" + joined)
  }

  lemma HttpSchemePrefix(s: string)
    ensures StartsWith("http://" + s, "http")
  {
    assert ("http://" + s)[..4] == "http";
  }

  /** A url that has an authority and starts with "http" comes back unchanged, whatever the base. */
  lemma ExpandUrlKeepsAbsolute(baseUrl: Option<string>, url: string)
    requires UrlSplit(url, "http").Success? && UrlSplit(url, "http").value.netloc != ""
    requires StartsWith(url, "http")
    ensures ExpandUrl(baseUrl, url) == Success(url)
  {
  }

  /** Without a base nothing is joined: the url only gains "http://" when it lacks the prefix. */
  lemma ExpandUrlWithoutBase(url: string)
    ensures UrlSplit(url, "http").Success? ==>
      ExpandUrl(None, url) == Success(if StartsWith(url, "http") then url else "http://" + url)
    ensures UrlSplit(url, "http").Failure? ==> ExpandUrl(None, url).Failure?
  {
  }

  /** A base without the "http" prefix behaves as "http://" followed by that base. */
  lemma ExpandUrlBareBase(base: string, url: string)
    requires !StartsWith(base, "http")
    ensures ExpandUrl(Some(base), url) == ExpandUrl(Some("http://" + base), url)
  {
    assert CompletedBase(base) == "http://" + base by {
      HttpPrefixOnly(base);
    }
    assert CompletedBase("http://" + base) == "http://" + base by {
      HttpSchemePrefix(base);
      HttpPrefixOnly("http://" + base);
    }
    ExpandUrlSameBase(base, "http://" + base, url);
  }

  /** The base enters the expansion only through its completed form. */
  lemma ExpandUrlSameBase(base1: string, base2: string, url: string)
    requires CompletedBase(base1) == CompletedBase(base2)
    ensures ExpandUrl(Some(base1), url) == ExpandUrl(Some(base2), url)
  {
  }

  /** The base `expand_url` joins against: the given one, completed with "http://" when it lacks the prefix. */
  function CompletedBase(base: string): (r: string)
    ensures r != ""
    ensures StartsWith(r, "http")
  {
    HttpPrefixOnly(base);
    if HasHttpPrefix(base) then base else HttpSchemePrefix(base); "http://" + base
  }

  /** Expansion fails only when `urlparse` fails on the url or on the completed base. */
  lemma ExpandUrlFailure(baseUrl: Option<string>, url: string)
    ensures ExpandUrl(baseUrl, url).Failure? ==>
      UrlSplit(url, "").Failure? || (baseUrl.Some? && UrlSplit(CompletedBase(baseUrl.value), "").Failure?)
  {
    UrlSplitDefault(url, "", "http");
    if baseUrl.Some? && UrlSplit(url, "http").Success? && UrlSplit(url, "http").value.netloc == "" {
      var base := CompletedBase(baseUrl.value);
      assert ExpandUrl(baseUrl, url).Failure? ==> UrlJoin(base, url).Failure?;
      if url != "" {
        JoinFailure(base, url);
      }
    }
  }

  /** A host name that `expand_url` completes to "http://host": plain, without the "http" prefix. */
  predicate IsBareHost(host: string)
  {
    IsPlainAuthority(host) && !HasHttpPrefix(host)
  }

  /** A host that "http://" + host splits back into as its authority. */
  predicate IsPlainAuthority(host: string)
  {
    host != "" && IsPlainHost(host) && '\t' !in host && '\r' !in host && '\n' !in host
  }

  /**
   * A reference `expand_url` resolves against a base: a plain path without dot segments, "//"
   * or `;params`.
   */
  predicate IsPlainReference(ref: string)
  {
    ref != [] && ref[0] > ' ' && IsPlainPath(ref) && ';' !in ref && NoDotSegments(ref) && !StartsWith(ref, "//")
    && (':' !in ref || !IsAsciiAlpha(ref[0]))
    && (ref[0] != '/' ==> NoEmptyInnerSegments(ref))
  }

  lemma HttpBase(host: string)
    requires IsPlainAuthority(host)
    ensures UrlSplit("http://" + host, "") == Success(SplitResult("http", host, "", "", ""))
  {
    HttpSchemeName();
    HttpLiteral(host, "");
    assert "http://" + host + "" == "http://" + host;
    SplitAbsoluteUrl("http", host, "", "");
  }

  lemma HttpSchemeName()
    ensures IsSchemeName("http") && Lower("http") == "http"
  {
    LowerIdentity("http");
  }

  // A step about string literals, kept in a lemma of its own so that the proofs using it stay cheap.
  lemma HttpLiteral(host: string, path: string)
    ensures "http" + "://" + host + path == "http://" + host + path
  {
    assert "http" + "://" == "http://";
  }

  /**
   * Section 5.2 of RFC 3986 against a bare host: an absolute path is appended to "http://host",
   * a relative path is placed under the root, and a trailing slash is kept.
   */
  lemma ExpandUrlAgainstHost(host: string, ref: string)
    requires IsBareHost(host) && IsPlainReference(ref)
    ensures ExpandUrl(Some(host), ref) == Success("http://" + host + (if ref[0] == '/' then ref else "/" + ref))
  {
    var path := if ref[0] == '/' then ref else "/" + ref;
    var result := "http://" + host + path;
    assert CompletedBase(host) == "http://" + host by {
      HttpPrefixOnly(host);
    }
    SplitRelativeRef(ref, "http");
    JoinAgainstHost(host, ref);
    HttpUrlPrefix(host, path);
    ExpandUrlJoins(host, ref, result);
  }

  // A step about string literals, kept in a lemma of its own so that the proofs using it stay cheap.
  lemma HttpUrlPrefix(host: string, path: string)
    ensures StartsWith("http://" + host + path, "http")
  {
    assert ("http://" + host + path)[..4] == "http";
  }

  /** When the url has no authority, the expansion is the join with the completed base. */
  lemma ExpandUrlJoins(base: string, url: string, joined: string)
    requires UrlSplit(url, "http").Success? && UrlSplit(url, "http").value.netloc == ""
    requires UrlJoin(CompletedBase(base), url) == Success(joined)
    ensures ExpandUrl(Some(base), url) == Success(if StartsWith(joined, "http") then joined else "http://" + joined)
  {
    HttpPrefixOnly(joined);
  }

  /** `urljoin("http://" + host, ref)` for a bare host and a plain reference. */
  lemma JoinAgainstHost(host: string, ref: string)
    requires IsPlainAuthority(host) && IsPlainReference(ref)
    ensures UrlJoin("http://" + host, ref) == Success("http://" + host + (if ref[0] == '/' then ref else "/" + ref))
  {
    var path := if ref[0] == '/' then ref else "/" + ref;
    HttpBase(host);
    SplitRelativeRef(ref, "http");
    HttpSchemeClasses();
    MergeAgainstRoot(ref);
    assert SplitParams("http", ref) == (ref, "") && SplitParams("http", "") == ("", "");
    JoinInheritsAuthority("http://" + host, ref);
    assert UrlUnsplit(SplitResult("http", host, path, "", "")) == "http://" + host + path by {
      UnsplitAbsolute("http", host, path);
      HttpLiteral(host, path);
    }
  }

  /**
   * `urlparse` reads a ';' at the end of a reference as empty params, `urljoin` merges the path
   * before it, and `urlunparse` leaves empty params out: "ref;" is joined as "ref".
   */
  lemma JoinDropsEmptyParams(host: string, ref: string)
    requires IsPlainAuthority(host) && IsPlainReference(ref)
    ensures UrlJoin("http://" + host, ref + ";") == UrlJoin("http://" + host, ref)
  {
    var path := if ref[0] == '/' then ref else "/" + ref;
    HttpBase(host);
    SplitTrailingParams(ref);
    TrailingParams("http", ref);
    HttpSchemeClasses();
    MergeAgainstRoot(ref);
    assert SplitParams("http", "") == ("", "");
    JoinInheritsAuthority("http://" + host, ref + ";");
    assert UrlUnsplit(SplitResult("http", host, path, "", "")) == "http://" + host + path by {
      UnsplitAbsolute("http", host, path);
      HttpLiteral(host, path);
    }
    JoinAgainstHost(host, ref);
  }

  /** So `expand_url` drops a ';' that ends a plain reference. */
  lemma ExpandUrlDropsEmptyParams(host: string, ref: string)
    requires IsBareHost(host) && IsPlainReference(ref)
    ensures ExpandUrl(Some(host), ref + ";") == ExpandUrl(Some(host), ref)
  {
    var path := if ref[0] == '/' then ref else "/" + ref;
    assert CompletedBase(host) == "http://" + host by {
      HttpPrefixOnly(host);
    }
    SplitTrailingParams(ref);
    JoinDropsEmptyParams(host, ref);
    JoinAgainstHost(host, ref);
    HttpUrlPrefix(host, path);
    ExpandUrlJoins(host, ref + ";", "http://" + host + path);
    ExpandUrlAgainstHost(host, ref);
  }

  /** A plain reference followed by ';' is still split as a bare path. */
  lemma SplitTrailingParams(ref: string)
    requires IsPlainReference(ref)
    ensures UrlSplit(ref + ";", "http") == Success(SplitResult("http", "", ref + ";", "", ""))
  {
    var withParams := ref + ";";
    assert withParams[0] == ref[0];
    assert !StartsWith(withParams, "//") by {
      if |ref| >= 2 {
        assert withParams[..2] == ref[..2];
      } else {
        assert withParams[1] == ';';
      }
    }
    assert IsPlainPath(withParams) && (':' !in withParams || !IsAsciiAlpha(withParams[0]));
    SplitRelativeRef(withParams, "http");
  }

  /** Against the empty path of a bare host, a plain reference ends up under the root. */
  lemma MergeAgainstRoot(ref: string)
    requires IsPlainReference(ref)
    ensures MergePath("", ref) == if ref[0] == '/' then ref else "/" + ref
  {
    if ref[0] == '/' {
      MergeAbsolutePath("", ref);
    } else {
      MergeIntoRoot(ref);
    }
  }

  // A set membership, kept in a lemma of its own so that the proofs using it stay cheap.
  lemma HttpSchemeClasses()
    ensures "http" in UsesRelative && "http" in UsesNetloc
  {
  }

  // ---------------------------------------------------------------------------------------------
  // The cases of tests/test_utils.py

  /** "http://www.cwi.nl" has the authority "www.cwi.nl". */
  lemma CwiSplit(url: string, host: string)
    requires url == "http://www.cwi.nl" && host == "www.cwi.nl"
    ensures UrlSplit(url, "http") == Success(SplitResult("http", host, "", "", ""))
  {
    HttpSchemeName();
    assert IsPlainHost(host) && '\t' !in host && '\r' !in host && '\n' !in host by {
    }
    assert "http" + "://" + host + "" == url by {
    }
    SplitAbsoluteUrl("http", host, "", "http");
  }

  /** An absolute url comes back unchanged, with or without a base. */
  lemma ExpandUrlAbsoluteVectors(baseUrl: Option<string>, url: string)
    requires baseUrl in {None, Some("NOTNONE")} && url == "http://www.cwi.nl"
    ensures ExpandUrl(baseUrl, url) == Success(url)
  {
    CwiAbsolute(url);
    ExpandUrlKeepsAbsolute(baseUrl, url);
  }

  /** "http://www.cwi.nl" is absolute: it has an authority and the prefix "http". */
  lemma CwiAbsolute(url: string)
    requires url == "http://www.cwi.nl"
    ensures UrlSplit(url, "http").Success? && UrlSplit(url, "http").value.netloc != ""
    ensures StartsWith(url, "http")
  {
    CwiSplit(url, "www.cwi.nl");
    assert url[..4] == "http";
  }

  /** The base hosts of the tests are bare. */
  lemma BareHostVectors(host: string)
    requires host in {"Base", "BBB"}
    ensures IsBareHost(host)
  {
    NoHttpPrefix(host);
    HttpPrefixOnly(host);
  }

  /** The segments of an absolute path of two segments. */
  lemma TwoSegments(a: string, b: string)
    requires '/' !in a && '/' !in b
    ensures SplitOn(['/'] + a + ['/'] + b, '/') == ["", a, b]
  {
    assert ['/'] + a + ['/'] + b == [] + ['/'] + (a + ['/'] + b);
    SplitOnPrefix([], a + ['/'] + b, '/');
    SplitOnPrefix(a, b, '/');
    SplitOnAbsent(b, '/');
  }

  /** `"dk"`: one relative segment. */
  lemma PlainReferenceDk(ref: string)
    requires ref == "dk"
    ensures IsPlainReference(ref)
  {
    SplitOnAbsent(ref, '/');
    assert ref[..2] != "//";
  }

  /** An absolute path of two plain segments, such as `"/data/index.html"`. */
  lemma PlainReferenceTwoSegments(ref: string, dir: string, file: string)
    requires ref == ['/'] + dir + ['/'] + file
    requires dir != "" && IsPlainPath(dir) && ':' !in dir && ';' !in dir && '/' !in dir && !IsDotSegment(dir)
    requires IsPlainPath(file) && ':' !in file && ';' !in file && '/' !in file && !IsDotSegment(file)
    ensures IsPlainReference(ref)
  {
    TwoSegments(dir, file);
    assert ref[1] == dir[0];
  }

  lemma DataReference(ref: string)
    requires ref == "/data/index.html"
    ensures IsPlainReference(ref) && ref[0] == '/'
  {
    assert ref == ['/'] + "data" + ['/'] + "index.html";
    PlainReferenceTwoSegments(ref, "data", "index.html");
  }

  /** A relative url is resolved under "http://" and the base host. */
  lemma ExpandUrlDkVector(base: string, ref: string)
    requires base == "BBB" && ref == "dk"
    ensures ExpandUrl(Some(base), ref) == Success("http://BBB/dk")
  {
    BareHostVectors(base);
    PlainReferenceDk(ref);
    assert "http://" + base + ("/" + ref) == "http://BBB/dk";
    ExpandUrlAgainstHost(base, ref);
  }

  /** A ';' that ends the reference is read as empty params and lost. */
  lemma ExpandUrlDkParamsVector(base: string, ref: string)
    requires base == "BBB" && ref == "dk;"
    ensures ExpandUrl(Some(base), ref) == Success("http://BBB/dk")
  {
    BareHostVectors(base);
    PlainReferenceDk("dk");
    assert ref == "dk" + ";";
    ExpandUrlDropsEmptyParams(base, "dk");
    ExpandUrlDkVector(base, "dk");
  }

  /** An absolute path keeps its trailing slash. */
  lemma ExpandUrlDkSlashVector(base: string, ref: string)
    requires base == "BBB" && ref == "/dk/"
    ensures ExpandUrl(Some(base), ref) == Success("http://BBB/dk/")
  {
    BareHostVectors(base);
    assert ref == ['/'] + "dk" + ['/'] + "";
    PlainReferenceTwoSegments(ref, "dk", "");
    assert "http://" + base + ref == "http://BBB/dk/";
    ExpandUrlAgainstHost(base, ref);
  }

  /** An absolute path is appended to the completed base. */
  lemma ExpandUrlDataVector(base: string, ref: string)
    requires base == "Base" && ref == "/data/index.html"
    ensures ExpandUrl(Some(base), ref) == Success("http://Base/data/index.html")
  {
    BareHostVectors(base);
    DataReference(ref);
    assert "http://" + base + ref == "http://Base/data/index.html";
    ExpandUrlAgainstHost(base, ref);
  }

  // ---------------------------------------------------------------------------------------------
  // A base host whose name starts with "http"

  /**
   * As written, a base such as "httpbin.org" passes the "http" prefix test, so it is not completed to
   * "http://httpbin.org": `urljoin` reads it as a bare path, the host is lost, and an absolute-path
   * reference comes back as "http://" + ref with an empty authority.
   */
  lemma ExpandUrlLosesHttpNamedHost(host: string, ref: string)
    requires StartsWith(host, "http") && ':' !in host && IsPlainPath(host)
    requires IsPlainReference(ref) && ref[0] == '/'
    ensures ExpandUrl(Some(host), ref) == Success("http://" + ref)
  {
    assert CompletedBase(host) == host by {
      HttpPrefixOnly(host);
    }
    SplitRelativeRef(ref, "http");
    JoinAgainstPathBase(host, ref);
    NoHttpPrefix(ref);
    ExpandUrlJoins(host, ref, ref);
  }

  /** A base with no scheme and no authority is a bare path: an absolute path replaces it outright. */
  lemma JoinAgainstPathBase(base: string, ref: string)
    requires StartsWith(base, "http") && ':' !in base && IsPlainPath(base)
    requires IsPlainReference(ref) && ref[0] == '/'
    ensures UrlJoin(base, ref) == Success(ref)
  {
    var basePath := SplitParams("", base).0;
    calc {
      UrlJoin(base, ref);
    == { JoinPathBaseMerges(base, ref); }
      Success(UrlUnparse(SplitResult("", "", MergePath(basePath, ref), "", ""), ""));
    == { MergeAbsolutePath(basePath, ref); }
      Success(UrlUnparse(SplitResult("", "", ref, "", ""), ""));
    == { UnparsePath(ref); }
      Success(ref);
    }
  }

  /** Against a base that is all path, a plain reference is merged into that path. */
  lemma JoinPathBaseMerges(base: string, ref: string)
    requires StartsWith(base, "http") && ':' !in base && IsPlainPath(base)
    requires IsPlainReference(ref)
    ensures UrlJoin(base, ref) == Success(UrlUnparse(SplitResult("", "", MergePath(SplitParams("", base).0, ref), "", ""), ""))
  {
    PathBaseSplit(base);
    SplitRelativeRef(ref, "");
    EmptySchemeClasses();
    assert SplitParams("", ref) == (ref, "");
    JoinInheritsAuthority(base, ref);
  }

  /** A base such as "httpbin.org" has no scheme and no authority: it is all path. */
  lemma PathBaseSplit(base: string)
    requires StartsWith(base, "http") && ':' !in base && IsPlainPath(base)
    ensures UrlSplit(base, "") == Success(SplitResult("", "", base, "", ""))
  {
    assert base[0] == 'h' by {
      assert base[..4][0] == 'h';
    }
    SplitRelativeRef(base, "");
  }

  // An unfolding of `urlunparse`, kept in a lemma of its own so that the proof using it stays cheap.
  lemma UnparsePath(path: string)
    requires path != [] && path[0] == '/'
    ensures UrlUnparse(SplitResult("", "", path, "", ""), "") == path
  {
  }

  lemma NoHttpPrefix(s: string)
    requires s != [] && s[0] != 'h'
    ensures !StartsWith(s, "http")
  {
    if |s| >= 4 {
      assert s[..4][0] == s[0];
    }
  }

  // A set membership, kept in a lemma of its own so that the proofs using it stay cheap.
  lemma EmptySchemeClasses()
    ensures "" in UsesRelative && "" in UsesNetloc
  {
  }

  /** The input that shows it: base "httpbin.org" and the reference "/data/index.html". */
  lemma ExpandUrlHttpbinVector(host: string, ref: string)
    requires host == "httpbin.org" && ref == "/data/index.html"
    ensures ExpandUrl(Some(host), ref) == Success("http:///data/index.html")
  {
    assert StartsWith(host, "http") && ':' !in host && IsPlainPath(host) by {
      HttpbinHost(host);
    }
    DataReference(ref);
    ExpandUrlLosesHttpNamedHost(host, ref);
    HttpbinLiteral(ref);
  }

  /**
   * A base such as "http:foo" has a scheme and no authority. It passes the "http" prefix test, the
   * join keeps its empty authority, and `urlunsplit` writes that as "//" after the scheme.
   */
  lemma ExpandUrlAgainstSchemeOnlyBase(path: string, ref: string)
    requires path != "" && IsPlainPath(path) && '/' !in path && ';' !in path
    requires IsPlainReference(ref) && '/' !in ref
    ensures ExpandUrl(Some("http:" + path), ref) == Success("http:///" + ref)
  {
    SchemeOnlyBaseKept(path);
    SplitRelativeRef(ref, "http");
    JoinAgainstSchemeOnlyBase(path, ref);
    HttpPrefixAfterJoin(ref);
    ExpandUrlJoins("http:" + path, ref, "http:///" + ref);
  }

  lemma SchemeOnlyBaseKept(path: string)
    ensures CompletedBase("http:" + path) == "http:" + path
  {
    HttpPrefixOnly("http:" + path);
    assert ("http:" + path)[..4] == "http";
  }

  lemma HttpPrefixAfterJoin(ref: string)
    ensures StartsWith("http:///" + ref, "http")
  {
    assert ("http:///" + ref)[..4] == "http";
  }

  /** `urljoin("http:" + path, ref)`: the reference replaces the one-segment path, under an empty authority. */
  lemma JoinAgainstSchemeOnlyBase(path: string, ref: string)
    requires path != "" && IsPlainPath(path) && '/' !in path && ';' !in path
    requires IsPlainReference(ref) && '/' !in ref
    ensures UrlJoin("http:" + path, ref) == Success("http:///" + ref)
  {
    calc {
      UrlJoin("http:" + path, ref);
    == { SchemeOnlyBaseMerges(path, ref); }
      Success(UrlUnparse(SplitResult("http", "", MergePath(SplitParams("http", path).0, ref), "", ""), ""));
    == { MergeIntoLastSegment(path, ref); }
      Success(UrlUnparse(SplitResult("http", "", ref, "", ""), ""));
    == { UnsplitEmptyAuthority("http", ref); assert "http" + ":///" == "http:///"; }
      Success("http:///" + ref);
    }
  }

  /** Against a base with a scheme and no authority, a plain reference is merged into the base path. */
  lemma SchemeOnlyBaseMerges(path: string, ref: string)
    requires path != "" && IsPlainPath(path) && '/' !in path
    requires IsPlainReference(ref)
    ensures UrlJoin("http:" + path, ref) ==
      Success(UrlUnparse(SplitResult("http", "", MergePath(SplitParams("http", path).0, ref), "", ""), ""))
  {
    SchemeOnlyBaseSplit(path);
    HttpColon(path);
    SplitRelativeRef(ref, "http");
    HttpSchemeClasses();
    assert SplitParams("http", ref) == (ref, "");
    JoinInheritsAuthority("http:" + path, ref);
  }

  lemma NoLeadingSlash(path: string)
    requires path != "" && '/' !in path
    ensures !StartsWith(path, "//")
  {
    assert path[..1][0] == path[0];
  }

  // A step about string literals, kept in a lemma of its own so that the proofs using it stay cheap.
  lemma HttpColon(path: string)
    ensures "http:" + path == "http" + ":" + path
  {
  }

  lemma SchemeOnlyBaseSplit(path: string)
    requires path != "" && IsPlainPath(path) && '/' !in path
    ensures UrlSplit("http" + ":" + path, "") == Success(SplitResult("http", "", path, "", ""))
  {
    NoLeadingSlash(path);
    HttpSchemeName();
    SplitSchemeOnlyUrl("http", path, "");
  }

  /** A reference of one segment merged into a base path of one segment replaces it. */
  lemma MergeIntoLastSegment(path: string, ref: string)
    requires path != "" && ';' !in path && '/' !in path
    requires IsPlainReference(ref) && '/' !in ref
    ensures MergePath(SplitParams("http", path).0, ref) == ref
  {
    SplitOnAbsent(path, '/');
    SplitOnAbsent(ref, '/');
    assert MergeSegments(path, ref) == [ref] by {
      assert !StartsWith(ref, "/") by {
        assert ref[..1][0] == ref[0];
      }
      assert Directory([path]) == [];
      assert [] + [ref] == [ref];
    }
    assert !IsDotSegment([ref][0]);
    ResolvePlain([ref]);
    JoinSplit(ref, '/');
  }

  // A step about string literals, kept in a lemma of its own so that the proofs using it stay cheap.
  lemma HttpbinLiteral(ref: string)
    requires ref == "/data/index.html"
    ensures "http://" + ref == "http:///data/index.html"
  {
  }

  // A step about string literals, kept in a lemma of its own so that the proofs using it stay cheap.
  lemma HttpbinFixedLiteral(host: string, ref: string)
    requires host == "httpbin.org" && ref == "/data/index.html"
    ensures "http://" + host + ref == "http://httpbin.org/data/index.html"
  {
  }

  lemma HttpbinHost(host: string)
    requires host == "httpbin.org"
    ensures StartsWith(host, "http") && ':' !in host && IsPlainPath(host) && IsPlainAuthority(host)
  {
    assert host[..4] == "http";
  }

  /** The scheme test `expand_url` evidently means: "http://" or "https://", not the bare letters. */
  predicate HasWebScheme(s: string)
  {
    StartsWith(s, "http://") || StartsWith(s, "https://")
  }

  lemma WebSchemePrefix(s: string)
    ensures StartsWith("http://" + s, "http://")
  {
    assert ("http://" + s)[..7] == "http://";
  }

  /** A plain host holds no '/', so it never starts with a scheme. */
  lemma PlainHostHasNoScheme(host: string)
    requires IsPlainHost(host)
    ensures !HasWebScheme(host)
  {
    if |host| >= 7 {
      assert host[..7][5] == host[5];
    }
    if |host| >= 8 {
      assert host[..8][6] == host[6];
    }
  }

  /** The base `ExpandUrlFixed` joins against: completed with "http://" unless it has a scheme. */
  function CompletedBaseFixed(base: string): (r: string)
    ensures HasWebScheme(r)
    ensures HasWebScheme(base) ==> r == base
  {
    if HasWebScheme(base) then base else WebSchemePrefix(base); "http://" + base
  }

  /** `expand_url` with both prefix tests made scheme tests; every success carries a scheme. */
  function ExpandUrlFixed(baseUrl: Option<string>, url: string): (r: Result<string, UrlError>)
    ensures r.Success? ==> HasWebScheme(r.value)
  {
    ExpandAgainstFixed(if baseUrl.Some? then Some(CompletedBaseFixed(baseUrl.value)) else None, url)
  }

  function ExpandAgainstFixed(base: Option<string>, url: string): (r: Result<string, UrlError>)
    ensures r.Success? ==> HasWebScheme(r.value)
  {
    var parsed :- UrlSplit(url, "http");
    var joined :- if parsed.netloc == "" && base.Some? then UrlJoin(base.value, url) else Success(url);
    Success(if HasWebScheme(joined) then joined else WebSchemePrefix(joined); "http://" + joined)
  }

  /**
   * Corrected: against any plain host, including one named "http...", a plain reference is resolved
   * under "http://" + host.
   */
  lemma ExpandUrlFixedAgainstHost(host: string, ref: string)
    requires IsPlainAuthority(host) && IsPlainReference(ref)
    ensures ExpandUrlFixed(Some(host), ref) == Success("http://" + host + (if ref[0] == '/' then ref else "/" + ref))
  {
    var path := if ref[0] == '/' then ref else "/" + ref;
    assert CompletedBaseFixed(host) == "http://" + host by {
      PlainHostHasNoScheme(host);
    }
    SplitRelativeRef(ref, "http");
    JoinAgainstHost(host, ref);
    WebUrlPrefix(host, path);
    ExpandUrlFixedJoins(host, ref, "http://" + host + path);
  }

  // A step about string literals, kept in a lemma of its own so that the proofs using it stay cheap.
  lemma WebUrlPrefix(host: string, path: string)
    ensures HasWebScheme("http://" + host + path)
  {
    assert ("http://" + host + path)[..7] == "http://";
  }

  lemma ExpandUrlFixedJoins(base: string, url: string, joined: string)
    requires UrlSplit(url, "http").Success? && UrlSplit(url, "http").value.netloc == ""
    requires UrlJoin(CompletedBaseFixed(base), url) == Success(joined) && HasWebScheme(joined)
    ensures ExpandUrlFixed(Some(base), url) == Success(joined)
  {
  }

  /** Corrected, on the same input: the host is kept. */
  lemma ExpandUrlFixedHttpbinVector(host: string, ref: string)
    requires host == "httpbin.org" && ref == "/data/index.html"
    ensures ExpandUrlFixed(Some(host), ref) == Success("http://httpbin.org/data/index.html")
  {
    assert IsPlainAuthority(host) by {
      HttpbinHost(host);
    }
    DataReference(ref);
    ExpandUrlFixedAgainstHost(host, ref);
    HttpbinFixedLiteral(host, ref);
  }
}

=== FILE: wrappers.dfy ===
/** Failure-compatible result types used for Python's `None` and raised exceptions. */
module Wrappers {

  datatype Option<+T> = None | Some(value: T)

  datatype Result<+R, +E> = Success(value: R) | Failure(error: E) {
    predicate IsFailure() { Failure? }

    function PropagateFailure<U>(): Result<U, E>
      requires Failure?
    {
      Failure(error)
    }

    function Extract(): R
      requires Success?
    {
      value
    }
  }
}
